=== FILE: README.md ===
# NGO impact reporting: a verified model of the import and reporting core

This project is a Dafny model of the server side of a small NGO reporting
application. NGOs submit monthly reports: people helped, events conducted,
funds utilised and region. They submit one report at a time or as a CSV file
processed in the background. An authenticated dashboard then aggregates the
reports. The model covers these parts:

- **The bulk-import worker** (`processCsv`), modules `Worker` and `WorkerProofs`. The parsed rows of an
  uploaded file are folded one by one. Each row is validated on its `ngoId`
  and `month` cells and upserted into the report collection. The fold keeps
  `processed` and `failed` counters and an ordered list of row errors. It
  flushes progress to the job record after row 1, row 11, row 21, … and the
  last row, and finally marks the job `completed`. The environment is a
  parameter (`Worker.World`):
  - whether the database connection fails;
  - how the CSV parser's stream ends;
  - the number parsers;
  - the store's answer to every report upsert and to every job write.

  The result records:
  - how the returned promise settles;
  - both collections afterwards;
  - the ordered trace of job writes;
  - whether the file was deleted.
- **The schemas** of the report and job collections (`ReportModel`, `JobModel`):
  - defaults and enumerations;
  - the unique `(ngoId, month)` index, which allows one report per key;
  - the upsert on that key that both writers request with `{ upsert: true }`
    (`ReportModel.Upsert`);
  - the unique job `id`.
- **The single-report submission**, `POST /api/report` (`ReportRoute`):
  - the required-field check;
  - the keyed upsert;
  - the 201/400/500 answers.
- **The dashboard**, `GET /api/dashboard` (`Dashboard`):
  - the filter built from the `month` and `region` query parameters;
  - the count and the three sums over the matching reports, all zero when
    nothing matches;
  - the distinct regions over the whole collection.
- **The authentication gate** (`Auth`):
  - the bearer token is the second space-separated segment of the
    `Authorization` header;
  - JWT verification is an abstract partial function;
  - `withAuth` either answers 401 without calling the route handler or calls
    it exactly once with the decoded user.

The model follows the code in one place where the code's own behaviour may
surprise a reader. `processCsv` catches only failures that happen before its
promise is returned, and in practice that is only a failing `connectDB()`.
Among the failures the model covers, two others reject the promise without
passing through that catch (a throwing file deletion is a further one, not
modelled; see "Left out"):
an error event of the CSV parser, and a job write that throws inside the
`'end'` handler. On those paths:
- the job is never marked `failed`;
- the uploaded file is not deleted;
- the job stays `pending`, or `processing` if the handler got that far.

`Worker.ProcessCsv` models this, and `WorkerProofs.UncaughtRejection` states
it.

Files: `wrappers.dfy` (Option, Result), `fields.dfy` (CSV rows and
JavaScript truthiness of optional strings), `http.dfy` (requests, JSON
responses and status codes), `report_model.dfy`, `job_model.dfy`,
`worker.dfy`, `worker_proofs.dfy`, `report_route.dfy`, `dashboard.dfy`,
`auth.dfy`.

## Model

| member | source | states |
|---|---|---|
| ReportModel.Upsert | src/lib/models/Report.ts:3-15 | The upsert on (ngoId, month): afterwards exactly one report sits under the key. It is the existing report, or a new one with the schema defaults (0, 0, 0, 'South', null jobId), with every written field replaced. Other keys are unchanged. |
| ReportModel.UpsertKeepsInvariants | src/lib/models/Report.ts:3-15 | An upsert keeps the collection keyed by (ngoId, month). It keeps the required fields non-empty when the key parts are non-empty, and keeps regions in the enumeration when the written region is in it. |
| ReportModel.UpsertIdempotent | src/lib/models/Report.ts:14-15 | Repeating an upsert changes nothing: the store and the returned report are those of the first upsert. |
| ReportModel.UpsertLastWriterWins | src/lib/utils/worker.ts:36-46 | When a later upsert to the same key writes every field, the earlier one leaves no trace. |
| ReportModel.OneReportPerKey | src/lib/models/Report.ts:14-15 | Any listing of the collection has no two reports with the same (ngoId, month). |
| JobModel.Create | src/lib/models/Job.ts:3-13 | Saving a job fails exactly when its id is empty or already taken. An empty id fails the `required` validator, which runs before the write; a taken id fails the unique index. Each failure carries its own message. Otherwise the new job is pending, with zero counters and no errors, and the other jobs are unchanged. |
| JobModel.CreateTwiceFails | src/lib/models/Job.ts:4 | Once a job with an id is saved, a second save with that id fails. |
| JobModel.ApplyUpdate | src/lib/utils/worker.ts:88-94 | Each job update changes only the fields it names. In particular, marking a job failed sets the status and replaces the errors with one entry that has a message but no row and no data, and leaves totals and counters as they were. |
| JobModel.Write | src/lib/utils/worker.ts:60-64 | An update by id without upsert: when no job has that id, nothing changes. Other jobs are never touched. |
| JobModel.WriteKeepsKeys | src/lib/utils/worker.ts:60-64 | An update by id never changes a job's id, so the collection stays keyed by id. |
| JobModel.CompleteOverridesFlush | src/lib/utils/worker.ts:59-74 | A progress flush immediately followed by the completion write leaves the job as the completion write alone would. |
| Worker.Validate | src/lib/utils/worker.ts:31-33 | A row passes exactly when its ngoId and month cells are both present and non-empty. The key is those two cells. A rejected row fails with "Missing ngoId or month". |
| Worker.BlankKeyCellsAccepted | src/lib/utils/worker.ts:31-33 | Whitespace-only key cells pass validation. An empty or missing key cell does not. |
| Worker.NumericText | src/lib/utils/worker.ts:39-41 | Only an absent or empty numeric cell is replaced by "0" before parsing. Any other text, malformed or not, goes to the parser unchanged. |
| Worker.RegionFor | src/lib/utils/worker.ts:42 | The stored region is the row's non-empty region cell, else the upload's non-empty default region, else 'South'. |
| Worker.RegionInEnumeration | src/lib/utils/worker.ts:42 | When the region cell and the default region are each empty or in the enumeration, the stored region is in the enumeration. |
| Worker.RowUpdate | src/lib/utils/worker.ts:36-46 | The upsert of an accepted row targets the row's key, writes every field and stamps the job id. Each number is parsed from the text `NumericText` chooses, and the region is the one `RegionFor` chooses. |
| Worker.RowOutcome | src/lib/utils/worker.ts:29-56 | A row that fails validation fails with "Missing ngoId or month". For a validated row, the row succeeds with its update when the store accepts the upsert. When the store throws, the row fails with the store's message. |
| Worker.IssueJobWrite | src/lib/utils/worker.ts:60-64 | Every job write is recorded in order. A write that succeeds applies the update to this run's job by id. A write that throws leaves the job collection unchanged and halts the handler. No job write touches the counters, the error list or the report store. |
| Worker.StateAfter | src/lib/utils/worker.ts:26-66 | After k iterations there is one error per failed row. processed + failed never exceeds k, and equals k unless a job write has thrown. |
| Worker.HaltedStays | src/lib/utils/worker.ts:82-84 | Once a job write has thrown, later rows change nothing. |
| Worker.ProcessCsv | src/lib/utils/worker.ts:7-100 | A resolved run connected, read the whole file and deleted it. Without a connection failure, the file is deleted exactly when the promise resolves. A connection failure rejects with no report touched and a single `failed` write carrying its message. The file is deleted and the fault rethrown unless that write throws. A parser error rejects with its message and changes nothing. |
| Worker.ProcessRows | src/lib/utils/worker.ts:19-66 | The counting loop, which leaves early when a progress write throws, computes the same state as the fold. On completion processed + failed is the row count and there is one error per failed row. |
| WorkerProofs.ErrorListFaithful | src/lib/utils/worker.ts:49-55 | After every iteration the error list has exactly one entry per failed row handled. Entries are in strictly increasing row order. Each has row i+1, the thrown message and the raw row. |
| WorkerProofs.ErrorsFaithfulStep | src/lib/utils/worker.ts:49-55 | One iteration keeps the error list faithful and handles exactly one more row. |
| WorkerProofs.CountersCountRows | src/lib/utils/worker.ts:48-50 | After every iteration, processed is the number of handled rows the store accepted. Since the handled rows are processed + failed, failed counts the rejected ones. |
| WorkerProofs.StoreFollowsLastWriter | src/lib/utils/worker.ts:36-46 | After the loop, each key holds the report written by the last accepted row with that key, or what it held before if no row wrote it. A rejected row never reaches the store, and later rows win over earlier ones. |
| WorkerProofs.RowReportFromCells | src/lib/utils/worker.ts:36-46 | The report an accepted row stores has the row's ngoId and month. Each number is parsed from its cell, or from "0" when the cell is absent or empty. The region is chosen by `RegionFor` and the job id is the run's. |
| WorkerProofs.KeyFollowsStep | src/lib/utils/worker.ts:36-46 | One iteration keeps every key in step with its last accepted row. |
| WorkerProofs.StoreInvariantsKept | src/lib/utils/worker.ts:36-46 | The import keeps one report per key and non-empty ngoId and month. When every region cell and the default region are empty or listed, it also keeps every region in the enumeration. |
| WorkerProofs.FlushPoints | src/lib/utils/worker.ts:59 | The flush points among the first k rows are exactly the 1-based rows i+1 with i % 10 == 0 or i == total - 1, in increasing order. |
| WorkerProofs.TraceOfLoop | src/lib/utils/worker.ts:58-65 | The job writes are: first `processing` with the row count, then one progress flush per flush point handled so far. A flush that reports h rows carries the counters after h rows: processed is the number of accepted rows among them and failed the others. It also carries the faithful error list of those h rows, which is a prefix of the current one. |
| WorkerProofs.TraceStep | src/lib/utils/worker.ts:59-65 | One iteration adds a progress flush exactly on a flush row and otherwise leaves the trace alone. |
| WorkerProofs.NoFlushBetween | src/lib/utils/worker.ts:59 | Rows between two flush points add no flush. |
| WorkerProofs.TwentyFiveRowsFlush | src/lib/utils/worker.ts:59 | A 25-row file flushes after rows 1, 11, 21 and 25, that is at iterations 0, 10, 20 and 24. |
| WorkerProofs.JobsDuringLoop | src/lib/utils/worker.ts:19-66 | During the loop no other job is touched. This run's job is as it was, or `processing` with the row count, and it is `processing` as long as no job write has thrown. |
| WorkerProofs.ResolvedRun | src/lib/utils/worker.ts:17-81 | A run that resolves connected and read the whole file. Its first job write is `processing` with the row count, then come the flushes, each with the counters and error list of its row, and its last write is `completed`. The job ends completed with totalRows the row count. processedRows is the number of accepted rows and failedRows the number of the others. Its errors are the faithful list of the failed rows. The file is deleted. |
| WorkerProofs.StartFailureTouchesNoRow | src/lib/utils/worker.ts:19-20 | The `processing` write precedes every row: when it throws, the promise rejects with no report and no job changed. |
| WorkerProofs.CaughtFailure | src/lib/utils/worker.ts:88-98 | A connection failure marks the job failed with one entry that has the message (or "Unknown error") and no row. Totals and counters are not written, and no report is touched. The file is deleted and the fault rethrown. When that job write throws too, nothing is written and the file stays. |
| WorkerProofs.UncaughtRejection | src/lib/utils/worker.ts:82-86 | A parser error, or a job write that throws inside the end handler, rejects without a `failed` write and without deleting the file. The job is left as it was or `processing`. A parser error touches nothing. |
| WorkerProofs.ControlFlowAgrees | src/lib/utils/worker.ts:26-66 | How far the loop gets and how many job writes it issues depend only on the row count and on which job writes throw. |
| WorkerProofs.StepControl | src/lib/utils/worker.ts:26-66 | One iteration handles one more row and issues a job write exactly on a flush row. |
| WorkerProofs.OutcomeIgnoresRowFailures | src/lib/utils/worker.ts:29-56 | When two runs' job writes answer alike by ordinal, their row contents, parsers and rejected report upserts never change how a run settles or how many job writes it issues. |
| WorkerProofs.RunStore | src/lib/utils/worker.ts:36-46 | After a whole run each key holds the report of the last accepted row with that key. A resolved run reached every row. |
| WorkerProofs.RerunKeepsStore | src/lib/utils/worker.ts:36-46 | Re-running the same job (the same job id and default region) on the same file, with the store answering as before, leaves the report collection unchanged. |
| WorkerProofs.RerunForNewJob | src/lib/utils/worker.ts:36-46 | Importing the same file for a new job id with the same default region, when the store's answer to an upsert does not depend on the job id it stamps: the collection keeps its keys. Every key the re-import wrote holds the first import's report with `jobId` set to the new job, and every other key keeps its report. |
| WorkerProofs.WrittenKeys | src/lib/utils/worker.ts:36-48 | A key is among those the first m rows wrote exactly when some accepted row before m carries it. |
| WorkerProofs.RowOutcomeOtherJob | src/lib/utils/worker.ts:29-46 | Under another job id with the same default region, a row is accepted or rejected alike. When accepted, it sends the same update with the other job id. |
| WorkerProofs.LastWriterOtherJob | src/lib/utils/worker.ts:36-46 | Under another job id with the same default region, every key has the same last accepted writer row. |
| WorkerProofs.CompletedJobBalances | src/lib/utils/worker.ts:69-74 | A job that was not already completed before the run ends `completed` only with processedRows + failedRows == totalRows. The upload route always creates a fresh pending job, so this premise holds for every import. |
| WorkerProofs.ResolvesWithoutJobFaults | src/lib/utils/worker.ts:17-81 | When the connection and the file succeed and no job write throws, the promise resolves, whatever the rows hold. |
| WorkerProofs.ThreeRowImport | src/lib/utils/worker.ts:17-81 | A three-row file whose second row lacks ngoId, with every write accepted, resolves. The job ends completed with totalRows 3, processedRows 2, failedRows 1 and a single error for row 2 with "Missing ngoId or month" and the raw row. Exactly two reports are written: the keys (ngo-1, 2024-01) and (ngo-2, 2024-01) are added to the collection, each with numbers parsed from "0", region "South" and the job's id. Every other existing report is unchanged. |
| WorkerProofs.ThreeRowStore | src/lib/utils/worker.ts:36-46 | After that import, the collection is the old one plus the two written keys with those reports. Every other key, including other months of ngo-1 and ngo-2, keeps its report. |
| WorkerProofs.StoreAfterSecondRowFails | src/lib/utils/worker.ts:29-56 | A resolved run over three rows, of which only the second is rejected, adds or overwrites the first and third rows' keys with their reports and leaves every other key as it was. |
| WorkerProofs.KeyAfterSecondRowFails | src/lib/utils/worker.ts:29-56 | The same, for one key. |
| WorkerProofs.SecondRowWritesNothing | src/lib/utils/worker.ts:29-56 | Over three rows of which only the second is rejected, a key's last writer is the third row if it carries the key, else the first row if it does, else none. |
| ReportRoute.BodyUpdate | src/app/api/report/route.ts:20-30 | The submission's upsert targets the body's (ngoId, month), writes the body's numbers and region, and never writes jobId. |
| ReportRoute.Post | src/app/api/report/route.ts:5-43 | A connection failure, an unreadable body or a failing upsert answers 500 "Internal Server Error" with the store unchanged. A missing or empty ngoId or month answers 400 "Missing required fields" with the store unchanged. Otherwise the answer is 201 "Report submitted successfully" with the stored report: exactly one report under the key, reflecting the body over the existing report or the defaults, and other keys unchanged. |
| ReportRoute.SubmitTwice | src/app/api/report/route.ts:19-30 | Submitting the same body twice gives the same answer and the same collection as submitting it once. |
| ReportRoute.SubmitKeepsJobLink | src/app/api/report/route.ts:21-28 | A manual submission keeps an existing report's jobId, and a new report has none. |
| ReportRoute.SubmitKeepsInvariants | src/app/api/report/route.ts:20-30 | A submission keeps one report per key and non-empty key fields. It keeps regions in the enumeration when the body names none or a listed one. |
| ReportRoute.UnlistedRegionStored | src/app/api/report/route.ts:20-30 | The route does not check the region: an accepted upsert stores an unlisted region such as "Central" as sent. |
| Dashboard.BuildFilter | src/app/api/dashboard/route.ts:14-16 | The month filter is set exactly when month is present and non-empty. The region filter is set exactly when region is present, non-empty and not 'All'. |
| Dashboard.SelectMembers | src/app/api/dashboard/route.ts:22 | The match stage keeps exactly the listed reports that satisfy the filter. |
| Dashboard.SelectPermutation | src/app/api/dashboard/route.ts:22 | Two listings of the same documents select the same documents. |
| Dashboard.Group | src/app/api/dashboard/route.ts:23-32 | The grouping stage yields no group exactly when nothing matched. |
| Dashboard.Handler | src/app/api/dashboard/route.ts:6-54 | A database failure answers 500 with its message as details. Otherwise the answer is 200 with the count and sums over the matching reports, all zero when none match, and the regions present anywhere in the collection. |
| Dashboard.DashboardGet | src/app/api/dashboard/route.ts:56 | `GET` is the handler wrapped by `withAuth`. Without a verified user it answers 401 and makes no call. Otherwise it calls the handler once with the user and returns its answer: 500 on a database fault, 200 otherwise. |
| Dashboard.DashboardRequiresAuth | src/app/api/dashboard/route.ts:56 | Without a verified token the dashboard answers 401 whatever the collection holds, and the handler is never called. |
| Dashboard.SumIntPermutation | src/app/api/dashboard/route.ts:27-28 | An integer sum over the selected reports does not depend on their order. |
| Dashboard.SumRealPermutation | src/app/api/dashboard/route.ts:29 | The funds sum does not depend on the order of the reports. |
| Dashboard.StatsIgnoreListingOrder | src/app/api/dashboard/route.ts:21-32 | The four statistics depend only on the collection and the filter, not on the order the database lists documents in. |
| Dashboard.RegionsIgnoreFilters | src/app/api/dashboard/route.ts:37 | The regions list is the same whatever the query parameters. It holds exactly the regions of the reports in the collection. |
| Dashboard.CountsReportsNotNgos | src/app/api/dashboard/route.ts:26 | totalNGOs counts matching reports, not distinct NGOs: one NGO with two months counts twice. |
| Auth.Split | src/lib/middleware/auth.ts:14 | Splitting on a character yields at least one piece, and no piece contains the separator. Joining the pieces back gives the header. |
| Auth.SplitJoin | src/lib/middleware/auth.ts:14 | Splitting the join of separator-free pieces gives the pieces back. |
| Auth.Token | src/lib/middleware/auth.ts:13-18 | With no header there is no token. A token is never empty and never contains a space. |
| Auth.TokenAfterScheme | src/lib/middleware/auth.ts:14 | For "scheme credential", alone or followed by a space and further text, with neither part containing a space, the token is the credential: the second segment, never the scheme. |
| Auth.NoTokenWithoutSecondSegment | src/lib/middleware/auth.ts:14-18 | A header without a space, such as "Bearer", yields no token. |
| Auth.NoTokenAfterDoubleSpace | src/lib/middleware/auth.ts:14-18 | A header whose first space is doubled, such as "Bearer  x", yields no token. |
| Auth.Authenticate | src/lib/middleware/auth.ts:10-26 | No token means no user. Otherwise the user is whatever verification of the token yields, which is none when verification fails. |
| Auth.WithAuth | src/lib/middleware/auth.ts:28-39 | When authentication yields no user, the answer is 401 "Unauthorized" and the handler is not called. Otherwise the handler is called exactly once, with the decoded user, and its answer is returned. |

## Left out

- Reading and tokenising the CSV file is left out. The stream's outcome is an input, either all parsed rows or an error; rows emitted before a stream error are never processed.
- A read error of the file itself is not modelled. The `'error'` listener is attached to the CSV parser, and `.pipe` does not forward errors of the file read stream, so such an error never reaches that listener and the promise never settles. Because the read stream has no `'error'` listener of its own, Node raises the error as an uncaught exception rather than dropping it. The stream outcome `StreamFailed` stands only for a parser error.
- Deleting the file is reduced to the `fileRemoved` flag. The existence check before deleting is not modelled.
- Worker.EndHandler and Worker.ProcessCsv: a throwing `fs.existsSync` or `fs.unlinkSync` is not modelled; the deletion always succeeds. In the end handler (src/lib/utils/worker.ts:77-79) such a throw would come after the `completed` write, so the promise would reject with the job completed and the file kept. In the outer catch (src/lib/utils/worker.ts:95-97) it would replace the connection fault as the thrown error, after the `failed` write.
- WorkerProofs.OutcomeIgnoresRowFailures: job-write failures are an answer per write ordinal. A job write that fails because of its contents, such as an error list past the 16 MB document limit, is not modelled, so the lemma does not cover runs whose row contents change whether a job write succeeds.
- WorkerProofs.RerunForNewJob: it assumes the store answers each upsert the same whatever job id it stamps. A store whose failures depend on that id is not covered.
- `parseInt` and `parseFloat` are abstract functions. Partial parses and NaN are not modelled. Whether the store refuses a NaN value or an unlisted region is part of its abstract per-row answer.
- Counts are unbounded integers and funds are reals. Double-precision rounding of the sums is not modelled.
- Mongoose casting and validation are left out. The JSON body fields are strings or numbers of the expected kind, and a body field of another JSON type is not modelled.
- An `undefined` field in the single-report update is treated as not written. The route's `updatedAt` is not a schema field and is dropped.
- `connectDB()` internals, concurrent imports racing on the unique index, and Mongo atomicity are left out. The model is one sequential run.
- The second `connectDB()` inside the outer catch is folded into the answer of the `failed` job write: when either throws, nothing is written.
- The error a rejected run carries is kept as a message. Stack traces and logging are not modelled.
- JWT signing and verification are an abstract function from token to optional user. The secret and the login route are not part of this model.
- The upload route is not part of this model. That covers multipart parsing, writing the file, generating the job id and dispatching `processCsv`. So are the job-status routes, the React pages, polling and the OpenAPI document.
- `createdAt` and `updatedAt` timestamps are not modelled.
- Query parameters and CSV cells are strings or absent. Mongo's `_id` is not modelled.

=== FILE: auth.dfy ===
/** The authentication gate of the dashboard: the token is the second
    space-separated segment of the `authorization` header, a token that fails
    verification is no identity, and `withAuth` answers 401 without calling
    the wrapped handler when there is no identity. Token verification itself
    (a signed-token library and a secret from the environment) is a parameter. */
module Auth {
  import opened Wrappers
  import opened Fields
  import opened Http

  const UnauthorizedError: string := "Unauthorized"

  /** The identity a verified token carries. */
  datatype User = User(username: string)

  /** Token verification: the user a token decodes to, or None when it does
      not verify. */
  type Verifier = string -> Option<User>

  /** The pieces joined back with the separator between consecutive ones. */
  function Join(parts: seq<string>, sep: char): string
    requires |parts| >= 1
    decreases |parts|
  {
    if |parts| == 1 then parts[0] else parts[0] + [sep] + Join(parts[1..], sep)
  }

  /** `s.split(sep)` for a one-character separator: the text between
      consecutive separators, in order, so that joining the pieces with the
      separator gives back `s`. An empty string splits into one empty piece,
      and two separators in a row leave an empty piece between them. */
  function Split(s: string, sep: char): (parts: seq<string>)
    ensures |parts| >= 1
    ensures forall i :: 0 <= i < |parts| ==> sep !in parts[i]
    ensures Join(parts, sep) == s
    decreases |s|
  {
    if s == [] then [""]
    else
      var rest := Split(s[1..], sep);
      if s[0] == sep then
        assert ([""] + rest)[1..] == rest;
        [""] + rest
      else
        var first := [s[0]] + rest[0];
        var parts := [first] + rest[1..];
        assert parts[1..] == rest[1..];
        assert |rest| > 1 ==> Join(rest, sep) == rest[0] + [sep] + Join(rest[1..], sep);
        assert s == [s[0]] + s[1..];
        parts
  }

  /** A text without the separator is one piece. */
  lemma {:induction false} SplitWithoutSeparator(a: string, sep: char)
    requires sep !in a
    ensures Split(a, sep) == [a]
    decreases |a|
  {
    if a != [] {
      SplitWithoutSeparator(a[1..], sep);
      assert [a[0]] + a[1..] == a;
    }
  }

  /** A separator-free first piece is split off whole. */
  lemma {:induction false} SplitFirstPiece(a: string, rest: string, sep: char)
    requires sep !in a
    ensures Split(a + [sep] + rest, sep) == [a] + Split(rest, sep)
    decreases |a|
  {
    var s := a + [sep] + rest;
    if a == [] {
      assert s[1..] == rest;
    } else {
      assert s[1..] == a[1..] + [sep] + rest;
      SplitFirstPiece(a[1..], rest, sep);
      assert [a[0]] + a[1..] == a;
    }
  }

  /** Splitting undoes joining, for pieces free of the separator. */
  lemma {:induction false} SplitJoin(parts: seq<string>, sep: char)
    requires |parts| >= 1
    requires forall i :: 0 <= i < |parts| ==> sep !in parts[i]
    ensures Split(Join(parts, sep), sep) == parts
    decreases |parts|
  {
    if |parts| == 1 {
      SplitWithoutSeparator(parts[0], sep);
    } else {
      SplitFirstPiece(parts[0], Join(parts[1..], sep), sep);
      SplitJoin(parts[1..], sep);
      assert [parts[0]] + parts[1..] == parts;
    }
  }

  /** `authHeader && authHeader.split(' ')[1]`, as a token only when truthy:
      no header, an empty header, a header without a second segment or with
      an empty one yields no token. */
  function Token(header: Option<string>): (t: Option<string>)
    ensures header.None? ==> t.None?
    ensures t.Some? ==> t.value != "" && ' ' !in t.value
  {
    if !Truthy(header) then None
    else
      var parts := Split(header.value, ' ');
      if |parts| < 2 || parts[1] == "" then None else Some(parts[1])
  }

  /** "<scheme> <token>", alone or followed by further space-separated
      text, yields the token: the second segment, never the scheme. */
  lemma TokenAfterScheme(scheme: string, cred: string, rest: string)
    requires ' ' !in scheme && ' ' !in cred && cred != ""
    requires rest == "" || rest[0] == ' '
    ensures Token(Some(scheme + " " + cred + rest)) == Some(cred)
  {
    assert scheme + " " + cred + rest == scheme + [' '] + (cred + rest);
    SplitFirstPiece(scheme, cred + rest, ' ');
    if rest == "" {
      assert cred + rest == cred;
      SplitWithoutSeparator(cred, ' ');
    } else {
      assert cred + rest == cred + [' '] + rest[1..];
      SplitFirstPiece(cred, rest[1..], ' ');
    }
  }

  /** A header with a single segment ("Bearer", or the empty header) yields
      no token. */
  lemma NoTokenWithoutSecondSegment(scheme: string)
    requires ' ' !in scheme
    ensures Token(Some(scheme)) == None
  {
    if scheme != "" {
      SplitWithoutSeparator(scheme, ' ');
    }
  }

  /** Two spaces after the scheme ("Bearer  x") leave the second segment
      empty: no token. */
  lemma NoTokenAfterDoubleSpace(scheme: string, rest: string)
    requires ' ' !in scheme
    ensures Token(Some(scheme + "  " + rest)) == None
  {
    var h := scheme + "  " + rest;
    assert h == scheme + [' '] + ("" + [' '] + rest);
    SplitFirstPiece(scheme, "" + [' '] + rest, ' ');
    SplitFirstPiece("", rest, ' ');
  }

  /** `authenticateToken`: the user the token verifies to, or None when
      there is no token or it does not verify. */
  function Authenticate(header: Option<string>, verify: Verifier): (r: Option<User>)
    ensures Token(header).None? ==> r.None?
    ensures Token(header).Some? ==> r == verify(Token(header).value)
  {
    match Token(header)
    case None => None
    case Some(t) => verify(t)
  }

  /** A response together with the identities the wrapped handler was
      called with, in call order. */
  datatype Served<+B> = Served(response: Response<B>, calls: seq<User>)

  /** `withAuth(handler)` applied to a request: 401 "Unauthorized" and no
      call when authentication yields nothing; otherwise exactly one call of
      the handler, with the decoded user, whose response is returned. */
  function WithAuth<B>(req: Request, verify: Verifier, handler: (Request, User) -> Response<B>): (served: Served<B>)
    ensures Authenticate(req.authorization, verify).None? ==>
      served.calls == [] && served.response.status == StatusUnauthorized
      && served.response.body == Error(UnauthorizedError, None)
    ensures Authenticate(req.authorization, verify).Some? ==>
      served.calls == [Authenticate(req.authorization, verify).value]
      && served.response == handler(req, served.calls[0])
  {
    match Authenticate(req.authorization, verify)
    case None => Served(Fail(StatusUnauthorized, UnauthorizedError), [])
    case Some(user) => Served(handler(req, user), [user])
  }
}

=== FILE: dashboard.dfy ===
/** The dashboard query: a filter built from the `month` and `region` query
    parameters, the count and sums over the matching reports (zero when none
    match), and the distinct regions over all reports. The handler is only
    reachable through the authentication gate. */
module Dashboard {
  import opened Wrappers
  import opened Fields
  import opened ReportModel
  import opened Http
  import opened Auth

  /** The match stage's query: a field that is None is not filtered on. */
  datatype Filter = Filter(month: Option<string>, region: Option<string>)

  /** `if (month) query.month = month; if (region && region !== 'All') query.region = region;` */
  function BuildFilter(month: Option<string>, region: Option<string>): (f: Filter)
    ensures f.month.Some? <==> month.Some? && month.value != ""
    ensures f.month.Some? ==> f.month == month
    ensures f.region.Some? <==> region.Some? && region.value != "" && region.value != "All"
    ensures f.region.Some? ==> f.region == region
  {
    Filter(if Truthy(month) then month else None,
           if Truthy(region) && region.value != "All" then region else None)
  }

  predicate Matches(f: Filter, r: Report) {
    (f.month.None? || r.month == f.month.value) && (f.region.None? || r.region == f.region.value)
  }

  /** The matching reports, in listing order. */
  function Select(rs: seq<Report>, f: Filter): (sel: seq<Report>)
    ensures |sel| <= |rs|
  {
    if rs == [] then []
    else (if Matches(f, rs[0]) then [rs[0]] else []) + Select(rs[1..], f)
  }

  /** The selection holds exactly the listed documents that match. */
  lemma {:induction false} SelectMembers(rs: seq<Report>, f: Filter)
    ensures forall r :: r in Select(rs, f) <==> r in rs && Matches(f, r)
    decreases |rs|
  {
    if rs != [] {
      SelectMembers(rs[1..], f);
      assert rs == [rs[0]] + rs[1..];
    }
  }

  function People(r: Report): int { r.peopleHelped }
  function Events(r: Report): int { r.eventsConducted }
  function Funds(r: Report): real { r.fundsUtilized }

  function SumInt(rs: seq<Report>, g: Report -> int): int {
    if rs == [] then 0 else g(rs[0]) + SumInt(rs[1..], g)
  }

  function SumReal(rs: seq<Report>, g: Report -> real): real {
    if rs == [] then 0.0 else g(rs[0]) + SumReal(rs[1..], g)
  }

  datatype Stats = Stats(totalNGOs: int, totalPeopleHelped: int, totalEventsConducted: int, totalFundsUtilized: real)

  /** The default the handler answers with when the aggregation returns no group. */
  const ZeroStats: Stats := Stats(0, 0, 0, 0.0)

  /** The count and the three sums over a list of reports. */
  function Totals(rs: seq<Report>): Stats {
    Stats(|rs|, SumInt(rs, People), SumInt(rs, Events), SumReal(rs, Funds))
  }

  /** The `$group` stage with `_id: null`: no group at all for no input
      document, else one group with the count and the sums. */
  function Group(sel: seq<Report>): (g: Option<Stats>)
    ensures g.None? <==> sel == []
  {
    if sel == [] then None else Some(Totals(sel))
  }

  /** What the dashboard answers with. */
  datatype DashboardData = DashboardData(stats: Stats, regions: set<string>)

  /** The handler, given the report collection as listed by the database and
      the fault a database call throws, if any. `totalNGOs` counts matching
      reports (one per NGO and month), not distinct NGOs. */
  function Handler(docs: seq<Report>, dbFault: Option<string>, req: Request, user: User): (resp: Response<DashboardData>)
    ensures dbFault.Some? ==> resp == Response(StatusServerError, Error(InternalServerError, dbFault))
    ensures dbFault.None? ==> resp.status == StatusOk && resp.body.Payload?
    ensures dbFault.None? ==>
      var sel := Select(docs, BuildFilter(Param(req, "month"), Param(req, "region")));
      && resp.body.value.stats == Totals(sel)
      && (sel == [] ==> resp.body.value.stats == ZeroStats)
      && (forall g :: g in resp.body.value.regions <==> exists r :: r in docs && r.region == g)
  {
    match dbFault
    case Some(_) => Response(StatusServerError, Error(InternalServerError, dbFault))
    case None =>
      var f := BuildFilter(Param(req, "month"), Param(req, "region"));
      var stats := Group(Select(docs, f)).GetOr(ZeroStats);
      var regions := set r | r in docs :: r.region;
      Response(StatusOk, Payload(DashboardData(stats, regions)))
  }

  /** `GET = withAuth(handler)` */
  function DashboardGet(docs: seq<Report>, dbFault: Option<string>, verify: Verifier, req: Request): (served: Served<DashboardData>)
    ensures Authenticate(req.authorization, verify).None? ==>
      served.calls == [] && served.response.status == StatusUnauthorized
    ensures Authenticate(req.authorization, verify).Some? ==>
      && served.calls == [Authenticate(req.authorization, verify).value]
      && served.response == Handler(docs, dbFault, req, served.calls[0])
    ensures Authenticate(req.authorization, verify).Some? && dbFault.Some? ==>
      served.response.status == StatusServerError
    ensures Authenticate(req.authorization, verify).Some? && dbFault.None? ==>
      served.response.status == StatusOk
  {
    WithAuth(req, verify, (rq, u) => Handler(docs, dbFault, rq, u))
  }

  /** The dashboard cannot be reached without a verified token: the answer is
      then 401 whatever the collection holds, and the handler is not called. */
  lemma DashboardRequiresAuth(docs1: seq<Report>, docs2: seq<Report>, dbFault: Option<string>, verify: Verifier, req: Request)
    requires Authenticate(req.authorization, verify).None?
    ensures DashboardGet(docs1, dbFault, verify, req).response.status == StatusUnauthorized
    ensures DashboardGet(docs1, dbFault, verify, req) == DashboardGet(docs2, dbFault, verify, req)
    ensures DashboardGet(docs1, dbFault, verify, req).calls == []
  {
  }

  lemma {:induction false} SelectAppend(a: seq<Report>, b: seq<Report>, f: Filter)
    ensures Select(a + b, f) == Select(a, f) + Select(b, f)
    decreases |a|
  {
    if a != [] {
      assert (a + b)[0] == a[0];
      assert (a + b)[1..] == a[1..] + b;
      SelectAppend(a[1..], b, f);
      var head := if Matches(f, a[0]) then [a[0]] else [];
      assert Select(a + b, f) == head + (Select(a[1..], f) + Select(b, f));
      assert Select(a, f) == head + Select(a[1..], f);
    } else {
      assert a + b == b;
    }
  }

  /** Listings with the same documents select the same documents. */
  lemma {:induction false} SelectPermutation(a: seq<Report>, b: seq<Report>, f: Filter)
    requires multiset(a) == multiset(b)
    ensures multiset(Select(a, f)) == multiset(Select(b, f))
    decreases |a|
  {
    if a == [] {
      assert |b| == |multiset(b)| == 0;
    } else {
      var x := a[0];
      assert x in multiset(b);
      var j :| 0 <= j < |b| && b[j] == x;
      var rest := b[..j] + b[j + 1..];
      RemoveMatching(a, b, j);
      SelectPermutation(a[1..], rest, f);
      SelectWithout(b, j, f);
      assert Select(a, f) == (if Matches(f, x) then [x] else []) + Select(a[1..], f);
    }
  }

  /** Selecting from a listing with one document taken out. */
  lemma SelectWithout(b: seq<Report>, j: int, f: Filter)
    requires 0 <= j < |b|
    ensures multiset(Select(b, f))
         == multiset(if Matches(f, b[j]) then [b[j]] else []) + multiset(Select(b[..j] + b[j + 1..], f))
  {
    var x, sx := b[j], if Matches(f, b[j]) then [b[j]] else [];
    var pre, post := b[..j], b[j + 1..];
    assert b == pre + ([x] + post);
    SelectAppend(pre, [x] + post, f);
    assert Select([x] + post, f) == sx + Select(post, f) by {
      assert ([x] + post)[1..] == post;
    }
    SelectAppend(pre, post, f);
    assert Select(b, f) == Select(pre, f) + (sx + Select(post, f));
    assert multiset(Select(b, f)) == multiset(Select(pre, f)) + multiset(sx) + multiset(Select(post, f));
  }

  /** Taking one element out of a sequence takes it out of its multiset. */
  lemma RemoveAt<T>(b: seq<T>, j: int)
    requires 0 <= j < |b|
    ensures b == b[..j] + [b[j]] + b[j + 1..]
    ensures multiset(b) == multiset(b[..j] + b[j + 1..]) + multiset{b[j]}
  {
    assert b == b[..j] + [b[j]] + b[j + 1..];
  }

  /** Taking the first element of one sequence and an equal element of a
      permutation of it leaves permutations of each other. */
  lemma RemoveMatching<T>(a: seq<T>, b: seq<T>, j: int)
    requires multiset(a) == multiset(b) && a != []
    requires 0 <= j < |b| && b[j] == a[0]
    ensures b == b[..j] + [a[0]] + b[j + 1..]
    ensures a == [a[0]] + a[1..]
    ensures multiset(a[1..]) == multiset(b[..j] + b[j + 1..])
  {
    RemoveAt(b, j);
    assert a == [a[0]] + a[1..];
    assert multiset(a) == multiset{a[0]} + multiset(a[1..]);
    assert multiset(a[1..]) == multiset(a) - multiset{a[0]};
  }

  lemma {:induction false} SumIntAppend(a: seq<Report>, b: seq<Report>, g: Report -> int)
    ensures SumInt(a + b, g) == SumInt(a, g) + SumInt(b, g)
    decreases |a|
  {
    if a != [] {
      assert (a + b)[0] == a[0];
      assert (a + b)[1..] == a[1..] + b;
      SumIntAppend(a[1..], b, g);
    } else {
      assert a + b == b;
    }
  }

  lemma {:induction false} SumRealAppend(a: seq<Report>, b: seq<Report>, g: Report -> real)
    ensures SumReal(a + b, g) == SumReal(a, g) + SumReal(b, g)
    decreases |a|
  {
    if a != [] {
      assert (a + b)[0] == a[0];
      assert (a + b)[1..] == a[1..] + b;
      SumRealAppend(a[1..], b, g);
    } else {
      assert a + b == b;
    }
  }

  /** A sum does not depend on the order of the documents summed. */
  lemma {:induction false} SumIntPermutation(a: seq<Report>, b: seq<Report>, g: Report -> int)
    requires multiset(a) == multiset(b)
    ensures SumInt(a, g) == SumInt(b, g)
    decreases |a|
  {
    if a == [] {
      assert |b| == |multiset(b)| == 0;
    } else {
      var x := a[0];
      assert x in multiset(b);
      var j :| 0 <= j < |b| && b[j] == x;
      var rest := b[..j] + b[j + 1..];
      RemoveMatching(a, b, j);
      SumIntPermutation(a[1..], rest, g);
      assert b == b[..j] + ([x] + b[j + 1..]);
      SumIntAppend(b[..j], [x] + b[j + 1..], g);
      assert SumInt([x] + b[j + 1..], g) == g(x) + SumInt(b[j + 1..], g) by {
        assert ([x] + b[j + 1..])[1..] == b[j + 1..];
      }
      SumIntAppend(b[..j], b[j + 1..], g);
    }
  }

  lemma {:induction false} SumRealPermutation(a: seq<Report>, b: seq<Report>, g: Report -> real)
    requires multiset(a) == multiset(b)
    ensures SumReal(a, g) == SumReal(b, g)
    decreases |a|
  {
    if a == [] {
      assert |b| == |multiset(b)| == 0;
    } else {
      var x := a[0];
      assert x in multiset(b);
      var j :| 0 <= j < |b| && b[j] == x;
      var rest := b[..j] + b[j + 1..];
      RemoveMatching(a, b, j);
      SumRealPermutation(a[1..], rest, g);
      assert b == b[..j] + ([x] + b[j + 1..]);
      SumRealAppend(b[..j], [x] + b[j + 1..], g);
      assert SumReal([x] + b[j + 1..], g) == g(x) + SumReal(b[j + 1..], g) by {
        assert ([x] + b[j + 1..])[1..] == b[j + 1..];
      }
      SumRealAppend(b[..j], b[j + 1..], g);
    }
  }

  /** The statistics depend only on the collection and the filter, not on
      the order the database lists the documents in. */
  lemma StatsIgnoreListingOrder(s: Store, docs1: seq<Report>, docs2: seq<Report>, f: Filter)
    requires ListsStore(s, docs1) && ListsStore(s, docs2)
    ensures Totals(Select(docs1, f)) == Totals(Select(docs2, f))
  {
    var sel1, sel2 := Select(docs1, f), Select(docs2, f);
    SelectPermutation(docs1, docs2, f);
    assert |sel1| == |multiset(sel1)| == |multiset(sel2)| == |sel2|;
    SumIntPermutation(sel1, sel2, People);
    SumIntPermutation(sel1, sel2, Events);
    SumRealPermutation(sel1, sel2, Funds);
  }

  /** `regions` is the set of regions over the whole collection: the month
      and region parameters do not narrow it. */
  lemma RegionsIgnoreFilters(s: Store, docs: seq<Report>, req1: Request, req2: Request, u1: User, u2: User)
    requires ListsStore(s, docs)
    ensures var r1, r2 := Handler(docs, None, req1, u1), Handler(docs, None, req2, u2);
      && r1.body.value.regions == r2.body.value.regions
      && (forall g :: g in r1.body.value.regions <==> exists k :: k in s && s[k].region == g)
  {
    var regions := Handler(docs, None, req1, u1).body.value.regions;
    forall g ensures g in regions <==> exists k :: k in s && s[k].region == g {
      if g in regions {
        var r :| r in docs && r.region == g;
        assert r in multiset(s.Values);
        var k :| k in s && s[k] == r;
      }
      if exists k :: k in s && s[k].region == g {
        var k :| k in s && s[k].region == g;
        assert s[k] in s.Values;
        assert s[k] in multiset(docs);
      }
    }
  }

  /** Two reports of the same NGO in different months count as two. */
  lemma CountsReportsNotNgos()
    ensures var a := Report("ngo-1", "2024-01", 5, 1, 10.0, "North", None);
      var b := Report("ngo-1", "2024-02", 7, 2, 20.0, "North", None);
      Totals(Select([a, b], BuildFilter(None, None))) == Stats(2, 12, 3, 30.0)
  {
    var a := Report("ngo-1", "2024-01", 5, 1, 10.0, "North", None);
    var b := Report("ngo-1", "2024-02", 7, 2, 20.0, "North", None);
    var f := BuildFilter(None, None);
    assert [a, b][1..] == [b];
    assert [b][1..] == [];
    assert Select([a, b], f) == [a, b];
    assert SumInt([b], People) == 7 && SumInt([b], Events) == 2 && SumReal([b], Funds) == 20.0;
    assert SumInt([a, b], People) == 12;
    assert SumInt([a, b], Events) == 3;
    assert SumReal([a, b], Funds) == 30.0;
  }
}

=== FILE: fields.dfy ===
/** Rows as the CSV parser hands them over, and the JavaScript truthiness tests
    the application applies to their cells and to other optional strings. */
module Fields {
  import opened Wrappers

  /** One parsed CSV row: header name to raw cell text. */
  type Row = map<string, string>

  /** `row.name`: the cell text, or None when the row has no such column. */
  function Get(row: Row, name: string): Option<string> {
    if name in row then Some(row[name]) else None
  }

  /** Truthiness of a value that is either a string or absent: only the absent
      value and the empty string are falsy; a blank such as " " is truthy. */
  predicate Truthy(v: Option<string>) {
    v.Some? && v.value != ""
  }

  /** `v || fallback` on a string-or-absent value. */
  function Or(v: Option<string>, fallback: string): string {
    if Truthy(v) then v.value else fallback
  }
}

=== FILE: http.dfy ===
/** The slice of the HTTP layer the routes use: the request parts they read and
    the JSON responses they build. */
module Http {
  import opened Wrappers

  const StatusCreated: int := 201
  const StatusOk: int := 200
  const StatusBadRequest: int := 400
  const StatusUnauthorized: int := 401
  const StatusServerError: int := 500

  const InternalServerError: string := "Internal Server Error"

  /** A request: its `authorization` header (absent or a string) and its
      query-string parameters. */
  datatype Request = Request(authorization: Option<string>, query: map<string, string>)

  /** `searchParams.get(name)`: the parameter, or None (null) when absent. */
  function Param(req: Request, name: string): Option<string> {
    if name in req.query then Some(req.query[name]) else None
  }

  /** A JSON body: either the route's payload or an error object
      `{ error, details? }`. */
  datatype Body<+B> = Payload(value: B) | Error(error: string, details: Option<string>)

  datatype Response<+B> = Response(status: int, body: Body<B>)

  function Fail<B>(status: int, error: string): Response<B> {
    Response(status, Error(error, None))
  }
}

=== FILE: job_model.dfy ===
/** The Job collection: one record per bulk import, tracking its status, row
    counters and row-level errors, unique by its generated id. */
module JobModel {
  import opened Wrappers
  import opened Fields

  /** The status enumeration; a new job is Pending. */
  datatype Status = Pending | Processing | Completed | Failed

  /** One entry of `errors`: the 1-based row number, the message and the raw
      row. The entry written when the whole job fails has neither row nor data. */
  datatype ErrorEntry = ErrorEntry(row: Option<int>, message: string, data: Option<Row>)

  datatype Job = Job(
    id: string,
    status: Status,
    totalRows: int,
    processedRows: int,
    failedRows: int,
    errors: seq<ErrorEntry>)

  /** `new Job({ id, status: 'pending' })` with the schema defaults. Timestamps are not modelled. */
  function NewJob(id: string): Job {
    Job(id, Pending, 0, 0, 0, [])
  }

  /** The collection, indexed by the unique `id`. */
  type JobStore = map<string, Job>

  predicate KeyedById(jobs: JobStore) {
    forall id :: id in jobs ==> jobs[id].id == id
  }

  /** The message of the `required` validator on `id`. */
  const RequiredIdMessage: string := "Job validation failed: id: Path `id` is required."

  /** Stands for MongoDB's message when the unique index on `id` rejects an
      insert (`E11000 duplicate key error collection: … index: id_1 dup key: …`);
      only its leading text is kept. */
  const DuplicateIdMessage: string := "E11000 duplicate key error"

  /** Saving a new job: the `required` validator rejects an empty id before
      the write, and the unique index rejects an id already present;
      otherwise the job is stored with its defaults. */
  function Create(jobs: JobStore, id: string): (r: Result<JobStore, string>)
    ensures r.Failure? <==> id == "" || id in jobs
    ensures id == "" ==> r == Failure(RequiredIdMessage)
    ensures id != "" && id in jobs ==> r == Failure(DuplicateIdMessage)
    ensures r.Success? ==> r.value.Keys == jobs.Keys + {id}
    ensures r.Success? ==> var j := r.value[id];
      j.id == id && j.status == Pending && j.totalRows == 0 && j.processedRows == 0
      && j.failedRows == 0 && j.errors == []
    ensures r.Success? ==> forall other :: other in jobs ==> r.value[other] == jobs[other]
    ensures r.Success? && KeyedById(jobs) ==> KeyedById(r.value)
  {
    if id == "" then Failure(RequiredIdMessage)
    else if id in jobs then Failure(DuplicateIdMessage)
    else Success(jobs[id := NewJob(id)])
  }

  /** The updates the bulk import sends to its job record, one per call of
      `Job.findOneAndUpdate({ id }, ...)`. */
  datatype JobUpdate =
    | StartProcessing(totalRows: nat)
    | FlushProgress(processed: nat, failed: nat, errors: seq<ErrorEntry>)
    | Complete(processed: nat, failed: nat, errors: seq<ErrorEntry>)
    | MarkFailed(message: string)

  /** The update applied to one job: only the fields it names change. */
  function ApplyUpdate(j: Job, u: JobUpdate): (r: Job)
    ensures r.id == j.id
    ensures u.StartProcessing? ==> r == j.(status := Processing, totalRows := u.totalRows)
    ensures u.FlushProgress? ==> r.status == j.status && r.totalRows == j.totalRows
    ensures (u.FlushProgress? || u.Complete?) ==>
      r.processedRows == u.processed && r.failedRows == u.failed && r.errors == u.errors
    ensures u.Complete? ==> r.status == Completed && r.totalRows == j.totalRows
    ensures u.MarkFailed? ==>
      r.status == Failed && r.errors == [ErrorEntry(None, u.message, None)]
      && r.totalRows == j.totalRows && r.processedRows == j.processedRows && r.failedRows == j.failedRows
  {
    match u
    case StartProcessing(n) => j.(status := Processing, totalRows := n)
    case FlushProgress(p, f, e) => j.(processedRows := p, failedRows := f, errors := e)
    case Complete(p, f, e) => j.(status := Completed, processedRows := p, failedRows := f, errors := e)
    case MarkFailed(m) => j.(status := Failed, errors := [ErrorEntry(None, m, None)])
  }

  /** `findOneAndUpdate({ id }, update)` without upsert: no job with that id
      means nothing is written. */
  function Write(jobs: JobStore, id: string, u: JobUpdate): (r: JobStore)
    ensures r.Keys == jobs.Keys
    ensures id in jobs ==> r[id] == ApplyUpdate(jobs[id], u)
    ensures forall other :: other in jobs && other != id ==> r[other] == jobs[other]
  {
    if id in jobs then jobs[id := ApplyUpdate(jobs[id], u)] else jobs
  }

  /** Updates never change a job's id, so the collection stays keyed by it. */
  lemma WriteKeepsKeys(jobs: JobStore, id: string, u: JobUpdate)
    requires KeyedById(jobs)
    ensures KeyedById(Write(jobs, id, u))
  {
  }

  /** The unique index: once a job with `id` is saved, saving another job
      with that id fails and leaves the saved one in place. */
  lemma CreateTwiceFails(jobs: JobStore, id: string)
    requires Create(jobs, id).Success?
    ensures Create(Create(jobs, id).value, id).Failure?
    ensures Create(jobs, id).value[id] == NewJob(id)
  {
  }

  /** The completion write names every field a progress flush names, so a
      flush just before it leaves no trace. */
  lemma CompleteOverridesFlush(j: Job, p: nat, f: nat, e: seq<ErrorEntry>, p0: nat, f0: nat, e0: seq<ErrorEntry>)
    ensures ApplyUpdate(ApplyUpdate(j, FlushProgress(p0, f0, e0)), Complete(p, f, e)) == ApplyUpdate(j, Complete(p, f, e))
  {
  }
}

=== FILE: report_model.dfy ===
/** The Report collection: one NGO's monthly impact record, its defaults, its
    region enumeration, and the unique (ngoId, month) index, which allows at
    most one document per key. Both writers pass `{ upsert: true }`, so every
    report write is an upsert on that key. */
module ReportModel {
  import opened Wrappers

  /** The values the schema's region enumeration admits. */
  const Regions: set<string> := {"North", "South", "East", "West", "All"}

  /** The schema default for `region`. */
  const DefaultRegion: string := "South"

  /** The unique compound index: (ngoId, month). */
  type ReportKey = (string, string)

  /** A stored report. `jobId` is None for null (a report not written by a
      bulk import). The creation timestamp is not modelled. */
  datatype Report = Report(
    ngoId: string,
    month: string,
    peopleHelped: int,
    eventsConducted: int,
    fundsUtilized: real,
    region: string,
    jobId: Option<string>)
  {
    function Key(): ReportKey {
      (ngoId, month)
    }
  }

  /** The arguments of `findOneAndUpdate(filter, update, { upsert: true, new: true })`:
      the filter is the key, and a field that is None is not written. */
  datatype ReportUpdate = ReportUpdate(
    ngoId: string,
    month: string,
    peopleHelped: Option<int>,
    eventsConducted: Option<int>,
    fundsUtilized: Option<real>,
    region: Option<string>,
    jobId: Option<string>)
  {
    function Key(): ReportKey {
      (ngoId, month)
    }

    /** Every mutable field of the report is written. */
    predicate WritesAll() {
      peopleHelped.Some? && eventsConducted.Some? && fundsUtilized.Some? && region.Some? && jobId.Some?
    }
  }

  /** The collection, indexed by its unique key. */
  type Store = map<ReportKey, Report>

  /** Every report sits under its own key. */
  predicate WellKeyed(s: Store) {
    forall k :: k in s ==> s[k].Key() == k
  }

  /** The required string fields are non-empty in every report. */
  predicate HasRequired(s: Store) {
    forall k :: k in s ==> s[k].ngoId != "" && s[k].month != ""
  }

  /** Every report's region is one the enumeration admits. */
  predicate RegionsValid(s: Store) {
    forall k :: k in s ==> s[k].region in Regions
  }

  /** A report created for `key` with the schema defaults for every other field. */
  function Fresh(key: ReportKey): Report {
    Report(key.0, key.1, 0, 0, 0.0, DefaultRegion, None)
  }

  /** The report an update that writes every field leaves behind, whatever was there before. */
  function Written(u: ReportUpdate): Report
    requires u.WritesAll()
  {
    Report(u.ngoId, u.month, u.peopleHelped.value, u.eventsConducted.value, u.fundsUtilized.value,
      u.region.value, u.jobId)
  }

  /** `r` is `base` with the fields `u` writes replaced by the written values. */
  predicate Reflects(r: Report, u: ReportUpdate, base: Report) {
    && r.Key() == base.Key()
    && r.peopleHelped == u.peopleHelped.GetOr(base.peopleHelped)
    && r.eventsConducted == u.eventsConducted.GetOr(base.eventsConducted)
    && r.fundsUtilized == u.fundsUtilized.GetOr(base.fundsUtilized)
    && r.region == u.region.GetOr(base.region)
    && r.jobId == (if u.jobId.Some? then u.jobId else base.jobId)
  }

  function Apply(r: Report, u: ReportUpdate): Report {
    Report(r.ngoId, r.month,
      u.peopleHelped.GetOr(r.peopleHelped),
      u.eventsConducted.GetOr(r.eventsConducted),
      u.fundsUtilized.GetOr(r.fundsUtilized),
      u.region.GetOr(r.region),
      if u.jobId.Some? then u.jobId else r.jobId)
  }

  /** The upsert: find the report with `u`'s key, or create one with the schema
      defaults, and overwrite the written fields. Returns the new store and the
      report as stored (`new: true`). */
  function Upsert(s: Store, u: ReportUpdate): (r: (Store, Report))
    ensures r.0.Keys == s.Keys + {u.Key()}
    ensures r.0[u.Key()] == r.1 && r.1.Key() == u.Key()
    ensures forall k :: k in s && k != u.Key() ==> r.0[k] == s[k]
    ensures u.Key() in s && WellKeyed(s) ==> Reflects(r.1, u, s[u.Key()])
    ensures u.Key() !in s ==> Reflects(r.1, u, Fresh(u.Key()))
    ensures u.Key() !in s && u.peopleHelped.None? ==> r.1.peopleHelped == 0
    ensures u.Key() !in s && u.eventsConducted.None? ==> r.1.eventsConducted == 0
    ensures u.Key() !in s && u.fundsUtilized.None? ==> r.1.fundsUtilized == 0.0
    ensures u.Key() !in s && u.region.None? ==> r.1.region == DefaultRegion
    ensures u.Key() !in s && u.jobId.None? ==> r.1.jobId == None
    ensures u.WritesAll() ==> r.1 == Written(u)
  {
    var key := u.Key();
    var base := if key in s then s[key] else Fresh(key);
    var report := Apply(base, u).(ngoId := key.0, month := key.1);
    (s[key := report], report)
  }

  /** The upsert keeps the collection keyed, keeps the required fields
      non-empty when the key's parts are, and keeps regions in the
      enumeration when the written region is in it. */
  lemma UpsertKeepsInvariants(s: Store, u: ReportUpdate)
    ensures WellKeyed(s) ==> WellKeyed(Upsert(s, u).0)
    ensures HasRequired(s) && u.ngoId != "" && u.month != "" ==> HasRequired(Upsert(s, u).0)
    ensures RegionsValid(s) && (u.region.None? || u.region.value in Regions) ==> RegionsValid(Upsert(s, u).0)
  {
  }

  /** Upserting the same update twice leaves the store as one upsert does. */
  lemma UpsertIdempotent(s: Store, u: ReportUpdate)
    requires WellKeyed(s)
    ensures Upsert(Upsert(s, u).0, u) == Upsert(s, u)
  {
    var (s1, r1) := Upsert(s, u);
    var (s2, r2) := Upsert(s1, u);
    assert r2 == r1;
    assert s2 == s1;
  }

  /** When the later of two updates to the same key writes every field, the
      earlier one leaves no trace: the last writer wins. */
  lemma UpsertLastWriterWins(s: Store, u1: ReportUpdate, u2: ReportUpdate)
    requires WellKeyed(s)
    requires u1.Key() == u2.Key() && u2.WritesAll()
    ensures Upsert(Upsert(s, u1).0, u2) == Upsert(s, u2)
  {
    var (s1, _) := Upsert(s, u1);
    var (a, ra) := Upsert(s1, u2);
    var (b, rb) := Upsert(s, u2);
    assert ra == rb;
    assert a == b;
  }

  /** `rs` lists the collection's documents: each stored report exactly once,
      in some order the store chooses. */
  predicate ListsStore(s: Store, rs: seq<Report>) {
    multiset(rs) == multiset(s.Values)
  }

  /** In any listing of a well-keyed store, no two positions hold reports with
      the same (ngoId, month): the index admits at most one report per key. */
  lemma {:induction false} OneReportPerKey(s: Store, rs: seq<Report>, i: int, j: int)
    requires WellKeyed(s) && ListsStore(s, rs)
    requires 0 <= i < j < |rs|
    ensures rs[i].Key() != rs[j].Key()
  {
    if rs[i] == rs[j] {
      TwiceInSequence(rs, i, j);
      assert false;
    }
    assert rs[i] in multiset(s.Values) && rs[j] in multiset(s.Values);
    var ki :| ki in s && s[ki] == rs[i];
    var kj :| kj in s && s[kj] == rs[j];
    assert ki == rs[i].Key() && kj == rs[j].Key();
  }

  /** An element found at two positions of a sequence occurs at least twice in
      its multiset. */
  lemma {:induction false} TwiceInSequence<T>(xs: seq<T>, i: int, j: int)
    requires 0 <= i < j < |xs| && xs[i] == xs[j]
    ensures multiset(xs)[xs[i]] >= 2
  {
    var x := xs[i];
    assert xs == xs[..i] + [x] + xs[i + 1..j] + [x] + xs[j + 1..];
    assert multiset(xs) == multiset(xs[..i]) + multiset{x} + multiset(xs[i + 1..j]) + multiset{x} + multiset(xs[j + 1..]);
  }
}

=== FILE: report_route.dfy ===
/** The single-report submission: `POST /api/report` validates the two key
    fields, upserts the report on (ngoId, month) and answers with the stored
    document. */
module ReportRoute {
  import opened Wrappers
  import opened Fields
  import opened ReportModel
  import opened Http

  const MissingFieldsError: string := "Missing required fields"
  const SubmittedMessage: string := "Report submitted successfully"

  /** The parsed JSON body; a field the body does not carry is None. */
  datatype SubmitBody = SubmitBody(
    ngoId: Option<string>,
    month: Option<string>,
    peopleHelped: Option<int>,
    eventsConducted: Option<int>,
    fundsUtilized: Option<real>,
    region: Option<string>)

  /** The 201 payload `{ message, report }`. */
  datatype Submitted = Submitted(message: string, report: Report)

  /** The database as the route sees it: the fault `connectDB` throws, if any,
      and the fault the upsert throws for a given update, if any. */
  datatype Db = Db(connectFault: Option<string>, upsertFault: ReportUpdate -> Option<string>)

  /** The update the route sends: the four body fields, unwritten when the body
      lacks them; `jobId` is never written by this route. */
  function BodyUpdate(b: SubmitBody): (u: ReportUpdate)
    requires b.ngoId.Some? && b.month.Some?
    ensures u.Key() == (b.ngoId.value, b.month.value)
    ensures u.jobId.None?
    ensures u.region == b.region && u.peopleHelped == b.peopleHelped
    ensures u.eventsConducted == b.eventsConducted && u.fundsUtilized == b.fundsUtilized
  {
    ReportUpdate(b.ngoId.value, b.month.value, b.peopleHelped, b.eventsConducted,
      b.fundsUtilized, b.region, None)
  }

  /** The route, on a collection `s` and a body (None when the body is not
      valid JSON). Returns the response and the collection afterwards. */
  function Post(s: Store, db: Db, body: Option<SubmitBody>): (r: (Response<Submitted>, Store))
    ensures db.connectFault.Some? || body.None? ==> r == (Fail(StatusServerError, InternalServerError), s)
    ensures db.connectFault.None? && body.Some? && !(Truthy(body.value.ngoId) && Truthy(body.value.month)) ==>
      r == (Fail(StatusBadRequest, MissingFieldsError), s)
    ensures r.0.status == StatusCreated <==>
      && db.connectFault.None? && body.Some? && Truthy(body.value.ngoId) && Truthy(body.value.month)
      && db.upsertFault(BodyUpdate(body.value)).None?
    ensures (db.connectFault.None? && body.Some? && Truthy(body.value.ngoId) && Truthy(body.value.month)
             && db.upsertFault(BodyUpdate(body.value)).Some?) ==>
      r == (Fail(StatusServerError, InternalServerError), s)
    ensures r.0.status != StatusCreated ==> r.1 == s
    ensures r.0.status == StatusCreated ==>
      var key := (body.value.ngoId.value, body.value.month.value);
      && key.0 != "" && key.1 != ""
      && r.1.Keys == s.Keys + {key}
      && (forall k :: k in s && k != key ==> r.1[k] == s[k])
      && r.0.body == Payload(Submitted(SubmittedMessage, r.1[key]))
      && (key in s && WellKeyed(s) ==> Reflects(r.1[key], BodyUpdate(body.value), s[key]))
      && (key !in s ==> Reflects(r.1[key], BodyUpdate(body.value), Fresh(key)))
  {
    if db.connectFault.Some? || body.None? then
      (Fail(StatusServerError, InternalServerError), s)
    else if !(Truthy(body.value.ngoId) && Truthy(body.value.month)) then
      (Fail(StatusBadRequest, MissingFieldsError), s)
    else
      var u := BodyUpdate(body.value);
      if db.upsertFault(u).Some? then
        (Fail(StatusServerError, InternalServerError), s)
      else
        var (s', report) := Upsert(s, u);
        (Response(StatusCreated, Payload(Submitted(SubmittedMessage, report))), s')
  }

  /** Submitting the same body twice gives the same answer and the same
      collection as submitting it once. */
  lemma SubmitTwice(s: Store, db: Db, body: Option<SubmitBody>)
    requires WellKeyed(s)
    ensures Post(Post(s, db, body).1, db, body) == Post(s, db, body)
  {
    if db.connectFault.None? && body.Some? && Truthy(body.value.ngoId) && Truthy(body.value.month) {
      var u := BodyUpdate(body.value);
      if db.upsertFault(u).None? {
        UpsertIdempotent(s, u);
      }
    }
  }

  /** A submission leaves the bulk-import link of an existing report as it
      was, and a new report has none. */
  lemma SubmitKeepsJobLink(s: Store, db: Db, body: Option<SubmitBody>)
    requires WellKeyed(s)
    requires Post(s, db, body).0.status == StatusCreated
    ensures var key := (body.value.ngoId.value, body.value.month.value);
      Post(s, db, body).1[key].jobId == (if key in s then s[key].jobId else None)
  {
  }

  /** What a submission keeps of the collection's invariants: one document per
      key, non-empty key fields, and regions in the enumeration as long as the
      body names no other region. */
  lemma SubmitKeepsInvariants(s: Store, db: Db, body: Option<SubmitBody>)
    requires WellKeyed(s) && HasRequired(s)
    ensures WellKeyed(Post(s, db, body).1) && HasRequired(Post(s, db, body).1)
    ensures RegionsValid(s) && (body.None? || body.value.region.None? || body.value.region.value in Regions) ==>
      RegionsValid(Post(s, db, body).1)
  {
    if db.connectFault.None? && body.Some? && Truthy(body.value.ngoId) && Truthy(body.value.month) {
      UpsertKeepsInvariants(s, BodyUpdate(body.value));
    }
  }

  /** The route does not check the region against the enumeration: an
      upsert the database accepts stores a region outside it as sent. */
  lemma UnlistedRegionStored(s: Store)
    requires ("ngo-1", "2024-01") !in s
    ensures var body := SubmitBody(Some("ngo-1"), Some("2024-01"), None, None, None, Some("Central"));
      var r := Post(s, Db(None, u => None), Some(body));
      && r.0.status == StatusCreated
      && r.1[("ngo-1", "2024-01")] == Report("ngo-1", "2024-01", 0, 0, 0.0, "Central", None)
      && !RegionsValid(r.1)
  {
    var body := SubmitBody(Some("ngo-1"), Some("2024-01"), None, None, None, Some("Central"));
    var r := Post(s, Db(None, u => None), Some(body));
    assert r.1[("ngo-1", "2024-01")].region == "Central";
    assert "Central" !in Regions;
  }
}

=== FILE: worker.dfy ===
/** The bulk-import worker: `processCsv` reads the rows of an uploaded CSV file,
    validates and upserts each one into the report collection, keeps processed
    and failed counters and an ordered list of row errors, flushes progress to
    the job record every tenth row and on the last one, and finally marks the
    job completed. A failure while connecting to the database is caught and
    marks the job failed; a failure of the stream or of a job write inside the
    end handler rejects the returned promise without reaching that catch.

    Everything outside the program is a parameter (a `World`): the database
    connection, the outcome of reading the stream, the number parsers, and the
    store's answer to every report upsert and every job write. */
module Worker {
  import opened Wrappers
  import opened Fields
  import opened ReportModel
  import opened JobModel

  const MissingFieldsMessage: string := "Missing ngoId or month"
  const UnknownErrorMessage: string := "Unknown error"

  /** Progress is flushed on every row whose 0-based index is a multiple of this. */
  const FlushEvery: nat := 10

  /** A thrown value: an `Error` instance with its message, or anything else. */
  datatype Fault = ErrorValue(message: string) | OtherValue

  /** `error instanceof Error ? error.message : 'Unknown error'` */
  function FaultMessage(f: Fault): string {
    match f
    case ErrorValue(m) => m
    case OtherValue => UnknownErrorMessage
  }

  /** How the CSV parser's stream ends: the 'end' event after all rows were
      emitted, or the parser's 'error' event (rows emitted before it are never
      processed). The 'error' listener is attached to the parser, not to the
      file's read stream, so only a parser error reaches it. */
  datatype StreamOutcome = Ended(rows: seq<Row>) | StreamFailed(message: string)

  /** The environment of one run.
      - connect: the fault `connectDB()` throws before the stream is opened, if any;
      - stream: how the CSV stream ends;
      - parseInt, parseFloat: the number parsers, left abstract;
      - storeFault(i, u): the message the store throws when the upsert `u` of
        row i fails (a cast or validation error, a lost connection), if it does;
      - jobFault(n): the message the store throws on the n-th job write of
        the run (0-based), if it does. */
  datatype World = World(
    connect: Option<Fault>,
    stream: StreamOutcome,
    parseInt: string -> int,
    parseFloat: string -> real,
    storeFault: (nat, ReportUpdate) -> Option<string>,
    jobFault: nat -> Option<string>)

  /** The arguments of `processCsv` besides the file: the job id and the
      optional default region of the upload. */
  datatype Upload = Upload(jobId: string, defaultRegion: Option<string>)

  /** The rows of one run, with the world and upload it runs in. */
  datatype Run = Run(world: World, upload: Upload, rows: seq<Row>)

  /** The basic validation: a row is rejected when `ngoId` or `month` is absent
      or empty; otherwise its key is the pair of the two cells. */
  function Validate(row: Row): (r: Result<ReportKey, string>)
    ensures r.Success? <==> Truthy(Get(row, "ngoId")) && Truthy(Get(row, "month"))
    ensures r.Success? ==> r.value == (row["ngoId"], row["month"])
    ensures r.Success? ==> r.value.0 != "" && r.value.1 != ""
    ensures r.Failure? ==> r.error == MissingFieldsMessage
  {
    if !Truthy(Get(row, "ngoId")) || !Truthy(Get(row, "month")) then Failure(MissingFieldsMessage)
    else Success((row["ngoId"], row["month"]))
  }

  /** The text handed to the number parser: `row[name] || '0'`. */
  function NumericText(row: Row, name: string): (t: string)
    ensures name in row && row[name] != "" ==> t == row[name]
    ensures name !in row || row[name] == "" ==> t == "0"
  {
    Or(Get(row, name), "0")
  }

  /** `row.region || defaultRegion || 'South'` */
  function RegionFor(row: Row, defaultRegion: Option<string>): (region: string)
    ensures "region" in row && row["region"] != "" ==> region == row["region"]
    ensures ("region" !in row || row["region"] == "") && Truthy(defaultRegion) ==> region == defaultRegion.value
    ensures ("region" !in row || row["region"] == "") && !Truthy(defaultRegion) ==> region == DefaultRegion
    ensures region != ""
  {
    Or(Get(row, "region"), Or(defaultRegion, DefaultRegion))
  }

  /** Only an absent or empty key cell rejects a row: blanks are accepted. */
  lemma BlankKeyCellsAccepted()
    ensures Validate(map["ngoId" := " ", "month" := " "]) == Success((" ", " "))
    ensures Validate(map["ngoId" := "", "month" := "2024-01"]) == Failure(MissingFieldsMessage)
    ensures Validate(map["month" := "2024-01"]) == Failure(MissingFieldsMessage)
  {
  }

  /** The region a row is stored under is in the enumeration whenever its
      cell and the upload's default are each empty or in it. */
  lemma RegionInEnumeration(row: Row, defaultRegion: Option<string>)
    requires "region" !in row || row["region"] == "" || row["region"] in Regions
    requires !Truthy(defaultRegion) || defaultRegion.value in Regions
    ensures RegionFor(row, defaultRegion) in Regions
  {
  }

  /** The update a validated row sends to the store: every field written,
      numbers parsed from the cells, and the job id stamped. */
  function RowUpdate(w: World, up: Upload, key: ReportKey, row: Row): (u: ReportUpdate)
    ensures u.Key() == key && u.WritesAll()
    ensures u.jobId == Some(up.jobId)
    ensures u.peopleHelped == Some(w.parseInt(NumericText(row, "peopleHelped")))
    ensures u.eventsConducted == Some(w.parseInt(NumericText(row, "eventsConducted")))
    ensures u.fundsUtilized == Some(w.parseFloat(NumericText(row, "fundsUtilized")))
    ensures u.region == Some(RegionFor(row, up.defaultRegion))
  {
    ReportUpdate(key.0, key.1,
      Some(w.parseInt(NumericText(row, "peopleHelped"))),
      Some(w.parseInt(NumericText(row, "eventsConducted"))),
      Some(w.parseFloat(NumericText(row, "fundsUtilized"))),
      Some(RegionFor(row, up.defaultRegion)),
      Some(up.jobId))
  }

  /** The try block for row i: the update the store accepted, or the message
      that was thrown (by validation or by the store). */
  function RowOutcome(run: Run, i: nat): (r: Result<ReportUpdate, string>)
    requires i < |run.rows|
    ensures r.Success? ==> Validate(run.rows[i]).Success?
    ensures r.Success? ==> r.value == RowUpdate(run.world, run.upload, Validate(run.rows[i]).value, run.rows[i])
    ensures Validate(run.rows[i]).Failure? ==> r == Failure(MissingFieldsMessage)
    ensures Validate(run.rows[i]).Success? ==>
      var u := RowUpdate(run.world, run.upload, Validate(run.rows[i]).value, run.rows[i]);
      && (run.world.storeFault(i, u).None? ==> r == Success(u))
      && (run.world.storeFault(i, u).Some? ==> r == Failure(run.world.storeFault(i, u).value))
  {
    var row := run.rows[i];
    match Validate(row)
    case Failure(m) => Failure(m)
    case Success(key) =>
      var u := RowUpdate(run.world, run.upload, key, row);
      match run.world.storeFault(i, u)
      case Some(m) => Failure(m)
      case None => Success(u)
  }

  /** The local state of the end handler: the store and job collections, the
      counters, the error list, the job writes issued so far, and the message
      of the job write that threw, which ends the handler. */
  datatype LoopState = LoopState(
    store: Store,
    jobs: JobStore,
    processed: nat,
    failed: nat,
    errors: seq<ErrorEntry>,
    trace: seq<JobUpdate>,
    halted: Option<string>)

  /** The flush rule of the loop: row i of `total` flushes progress. */
  predicate FlushAt(i: nat, total: nat) {
    i % FlushEvery == 0 || i == total - 1
  }

  /** Issues one job write: it is recorded in the trace, applied unless the
      store throws, and a throw halts the handler. */
  function IssueJobWrite(run: Run, s: LoopState, u: JobUpdate): (r: LoopState)
    ensures r.trace == s.trace + [u]
    ensures r.halted == run.world.jobFault(|s.trace|)
    ensures r.store == s.store && r.processed == s.processed && r.failed == s.failed && r.errors == s.errors
    ensures run.world.jobFault(|s.trace|).None? ==> r.jobs == Write(s.jobs, run.upload.jobId, u)
    ensures run.world.jobFault(|s.trace|).Some? ==> r.jobs == s.jobs
  {
    var fault := run.world.jobFault(|s.trace|);
    s.(jobs := if fault.None? then Write(s.jobs, run.upload.jobId, u) else s.jobs,
       trace := s.trace + [u],
       halted := fault)
  }

  /** The state once the row count is known: `processing` with the total is written. */
  function Started(run: Run, store0: Store, jobs0: JobStore): LoopState {
    IssueJobWrite(run, LoopState(store0, jobs0, 0, 0, [], [], None), StartProcessing(|run.rows|))
  }

  /** The try/catch for row i: an accepted row is upserted and counted as
      processed; a rejected one is counted as failed and its error appended. */
  function AfterRow(run: Run, i: nat, s: LoopState): LoopState
    requires i < |run.rows|
  {
    match RowOutcome(run, i)
    case Success(u) => s.(store := Upsert(s.store, u).0, processed := s.processed + 1)
    case Failure(m) => s.(failed := s.failed + 1, errors := s.errors + [ErrorEntry(Some(i + 1), m, Some(run.rows[i]))])
  }

  /** One iteration of the loop, for row i. */
  function Step(run: Run, i: nat, s: LoopState): LoopState
    requires i < |run.rows|
  {
    if s.halted.Some? then s
    else
      var next := AfterRow(run, i, s);
      if FlushAt(i, |run.rows|) then IssueJobWrite(run, next, FlushProgress(next.processed, next.failed, next.errors))
      else next
  }

  /** The state after the first k iterations of the loop (fewer when a job
      write threw). While nothing has thrown, every row seen is counted exactly
      once, as processed or as failed; and there is one error per failed row. */
  function StateAfter(run: Run, store0: Store, jobs0: JobStore, k: nat): (s: LoopState)
    requires k <= |run.rows|
    ensures |s.errors| == s.failed
    ensures s.processed + s.failed <= k
    ensures s.halted.None? ==> s.processed + s.failed == k
  {
    if k == 0 then Started(run, store0, jobs0)
    else Step(run, k - 1, StateAfter(run, store0, jobs0, k - 1))
  }

  /** Once a job write has thrown, later iterations change nothing. */
  lemma {:induction false} HaltedStays(run: Run, store0: Store, jobs0: JobStore, j: nat, k: nat)
    requires j <= k <= |run.rows|
    requires StateAfter(run, store0, jobs0, j).halted.Some?
    ensures StateAfter(run, store0, jobs0, k) == StateAfter(run, store0, jobs0, j)
    decreases k
  {
    if k > j {
      HaltedStays(run, store0, jobs0, j, k - 1);
    }
  }

  /** The handler after the loop: unless a job write threw, `completed` is
      written with the final counters and error list. */
  function Finish(run: Run, store0: Store, jobs0: JobStore): LoopState {
    var s := StateAfter(run, store0, jobs0, |run.rows|);
    if s.halted.Some? then s
    else IssueJobWrite(run, s, Complete(s.processed, s.failed, s.errors))
  }

  /** How the promise `processCsv` returns settles. */
  datatype Outcome = Resolved | Rejected(fault: Fault)

  /** The outcome, the collections afterwards, every job write issued in order,
      and whether the uploaded file was deleted. */
  datatype RunResult = RunResult(
    outcome: Outcome,
    store: Store,
    jobs: JobStore,
    trace: seq<JobUpdate>,
    fileRemoved: bool)

  /** The 'end' handler: the loop, the final write, and the file clean-up on
      success. A job write that throws rejects the promise. */
  function EndHandler(run: Run, store0: Store, jobs0: JobStore): RunResult {
    var s := Finish(run, store0, jobs0);
    match s.halted
    case Some(m) => RunResult(Rejected(ErrorValue(m)), s.store, s.jobs, s.trace, false)
    case None => RunResult(Resolved, s.store, s.jobs, s.trace, true)
  }

  /** The outer catch, reached only when `connectDB()` threw: the job is
      marked failed with one generic error, the file is deleted and the fault
      rethrown. If that job write throws, the job is left as it was. */
  function CatchPath(w: World, up: Upload, f: Fault, store0: Store, jobs0: JobStore): RunResult {
    var u := MarkFailed(FaultMessage(f));
    match w.jobFault(0)
    case Some(m) => RunResult(Rejected(ErrorValue(m)), store0, jobs0, [u], false)
    case None => RunResult(Rejected(f), store0, Write(jobs0, up.jobId, u), [u], true)
  }

  /** `processCsv(filePath, jobId, defaultRegion)` against the collections
      `store0` and `jobs0`. */
  function ProcessCsv(w: World, up: Upload, store0: Store, jobs0: JobStore): (r: RunResult)
    ensures r.outcome.Resolved? ==> w.connect.None? && w.stream.Ended? && r.fileRemoved
    ensures w.connect.None? ==> (r.fileRemoved <==> r.outcome.Resolved?)
    ensures w.connect.Some? ==>
      && r.outcome.Rejected? && r.store == store0
      && r.trace == [MarkFailed(FaultMessage(w.connect.value))]
      && (r.fileRemoved <==> w.jobFault(0).None?)
    ensures w.connect.Some? && w.jobFault(0).None? ==> r.outcome == Rejected(w.connect.value)
    ensures w.connect.None? && w.stream.StreamFailed? ==>
      r == RunResult(Rejected(ErrorValue(w.stream.message)), store0, jobs0, [], false)
  {
    match w.connect
    case Some(f) => CatchPath(w, up, f, store0, jobs0)
    case None =>
      match w.stream
      case StreamFailed(m) => RunResult(Rejected(ErrorValue(m)), store0, jobs0, [], false)
      case Ended(rows) => EndHandler(Run(w, up, rows), store0, jobs0)
  }

  /** The loop of the end handler as the source writes it: a counting loop
      over the rows, leaving early when a progress write throws. It computes
      the fold `StateAfter`. */
  method ProcessRows(run: Run, store0: Store, jobs0: JobStore) returns (s: LoopState)
    ensures s == StateAfter(run, store0, jobs0, |run.rows|)
    ensures |s.errors| == s.failed
    ensures s.halted.None? ==> s.processed + s.failed == |run.rows|
  {
    var totalRows := |run.rows|;
    s := Started(run, store0, jobs0);
    if s.halted.Some? {
      HaltedStays(run, store0, jobs0, 0, totalRows);
      return;
    }
    var i := 0;
    while i < totalRows
      invariant 0 <= i <= totalRows
      invariant s == StateAfter(run, store0, jobs0, i) && s.halted.None?
    {
      StepUnfolds(run, store0, jobs0, i);
      s := Iteration(run, i, s);
      if s.halted.Some? {
        HaltedStays(run, store0, jobs0, i + 1, totalRows);
        return;
      }
      i := i + 1;
    }
  }

  /** One pass of the loop body: the row's try/catch, then the progress
      write when the row is a flush row. */
  method Iteration(run: Run, i: nat, cur: LoopState) returns (s: LoopState)
    requires i < |run.rows| && cur.halted.None?
    ensures s == Step(run, i, cur)
  {
    s := TryRow(run, i, cur);
    if i % FlushEvery == 0 || i == |run.rows| - 1 {
      var update := FlushProgress(s.processed, s.failed, s.errors);
      var fault := run.world.jobFault(|s.trace|);
      var jobs := if fault.None? then Write(s.jobs, run.upload.jobId, update) else s.jobs;
      s := s.(jobs := jobs, trace := s.trace + [update], halted := fault);
    }
  }

  lemma StepUnfolds(run: Run, store0: Store, jobs0: JobStore, i: nat)
    requires i < |run.rows|
    ensures StateAfter(run, store0, jobs0, i + 1) == Step(run, i, StateAfter(run, store0, jobs0, i))
  {
  }

  /** The try block and its catch for row i, statement by statement: the
      validation throws, the upsert may throw, and the catch counts the row as
      failed and records its error. */
  method TryRow(run: Run, i: nat, cur: LoopState) returns (next: LoopState)
    requires i < |run.rows|
    ensures next == AfterRow(run, i, cur)
  {
    next := cur;
    var row := run.rows[i];
    var thrown: Option<string> := None;
    if !Truthy(Get(row, "ngoId")) || !Truthy(Get(row, "month")) {
      thrown := Some(MissingFieldsMessage);
    } else {
      var u := RowUpdate(run.world, run.upload, (row["ngoId"], row["month"]), row);
      thrown := run.world.storeFault(i, u);
      if thrown.None? {
        next := next.(store := Upsert(cur.store, u).0, processed := cur.processed + 1);
      }
    }
    if thrown.Some? {
      next := next.(failed := cur.failed + 1, errors := cur.errors + [ErrorEntry(Some(i + 1), thrown.value, Some(row))]);
    }
  }
}

=== FILE: worker_proofs.dfy ===
/** What the bulk-import worker guarantees, proved about the model in `Worker`:
    the error list, the counters, the contents of the report collection after
    a run, the flush cadence, and the three ways a run can end. */
module WorkerProofs {
  import opened Wrappers
  import opened Fields
  import opened ReportModel
  import opened JobModel
  import opened Worker

  /** The number of rows a loop state has handled. */
  function Handled(s: LoopState): nat {
    s.processed + s.failed
  }

  predicate RowFails(run: Run, i: nat)
    requires i < |run.rows|
  {
    RowOutcome(run, i).Failure?
  }

  /** `e` records a failed row: its 1-based number, the raw row, and the
      message the row's try block threw. */
  predicate DescribesFailure(run: Run, e: ErrorEntry) {
    && e.row.Some? && 1 <= e.row.value <= |run.rows|
    && e.data == Some(run.rows[e.row.value - 1])
    && RowOutcome(run, e.row.value - 1) == Failure(e.message)
  }

  /** `errors` holds exactly one entry per failed row among the first `h`,
      in strictly increasing row order, each carrying the row number, the
      thrown message and the raw row. */
  predicate FaithfulList(run: Run, errors: seq<ErrorEntry>, h: nat) {
    && (forall j :: 0 <= j < |errors| ==> DescribesFailure(run, errors[j]) && errors[j].row.value <= h)
    && (forall a, b :: 0 <= a < b < |errors| ==> errors[a].row.value < errors[b].row.value)
    && (forall i :: 0 <= i < h && i < |run.rows| && RowFails(run, i) ==>
          exists j :: 0 <= j < |errors| && errors[j].row == Some(i + 1))
  }

  /** The error list of `s` is faithful to the rows it has handled. */
  predicate ErrorsFaithful(run: Run, s: LoopState) {
    FaithfulList(run, s.errors, Handled(s))
  }

  /** The error list is faithful after every iteration. */
  lemma {:induction false} ErrorListFaithful(run: Run, store0: Store, jobs0: JobStore, k: nat)
    requires k <= |run.rows|
    ensures ErrorsFaithful(run, StateAfter(run, store0, jobs0, k))
  {
    if k == 0 {
      StartState(run, store0, jobs0);
    } else {
      var i := k - 1;
      ErrorListFaithful(run, store0, jobs0, i);
      ErrorsAt(run, store0, jobs0, i);
      assert StateAfter(run, store0, jobs0, i + 1) == StateAfter(run, store0, jobs0, k);
    }
  }

  lemma ErrorsAt(run: Run, store0: Store, jobs0: JobStore, i: nat)
    requires i < |run.rows|
    requires ErrorsFaithful(run, StateAfter(run, store0, jobs0, i))
    ensures ErrorsFaithful(run, StateAfter(run, store0, jobs0, i + 1))
  {
    var p := StateAfter(run, store0, jobs0, i);
    StepUnfolds(run, store0, jobs0, i);
    if p.halted.Some? {
      HaltedStep(run, i, p);
    } else {
      ErrorsFaithfulStep(run, i, p);
    }
  }

  lemma ErrorsFaithfulStep(run: Run, i: nat, p: LoopState)
    requires i < |run.rows| && p.halted.None? && Handled(p) == i && |p.errors| == p.failed
    requires ErrorsFaithful(run, p)
    ensures Handled(Step(run, i, p)) == i + 1
    ensures ErrorsFaithful(run, Step(run, i, p))
  {
    var next := AfterRow(run, i, p);
    var s := Step(run, i, p);
    assert s.errors == next.errors && Handled(s) == Handled(next) == i + 1;
    match RowOutcome(run, i)
    case Success(u) =>
      assert next.errors == p.errors;
      FaithfulAccepted(run, p.errors, i);
    case Failure(m) =>
      var e := ErrorEntry(Some(i + 1), m, Some(run.rows[i]));
      assert next.errors == p.errors + [e];
      FaithfulRejected(run, p.errors, i, e);
  }

  /** An accepted row adds no entry. */
  lemma FaithfulAccepted(run: Run, errors: seq<ErrorEntry>, h: nat)
    requires h < |run.rows| && !RowFails(run, h)
    requires FaithfulList(run, errors, h)
    ensures FaithfulList(run, errors, h + 1)
  {
  }

  /** A rejected row adds its own entry at the end. */
  lemma FaithfulRejected(run: Run, errors: seq<ErrorEntry>, h: nat, e: ErrorEntry)
    requires h < |run.rows| && e.row == Some(h + 1) && DescribesFailure(run, e)
    requires FaithfulList(run, errors, h)
    ensures FaithfulList(run, errors + [e], h + 1)
  {
    var es := errors + [e];
    forall r | 0 <= r < h + 1 && RowFails(run, r)
      ensures exists j :: 0 <= j < |es| && es[j].row == Some(r + 1)
    {
      if r < h {
        var j :| 0 <= j < |errors| && errors[j].row == Some(r + 1);
        assert es[j] == errors[j];
      } else {
        assert es[|errors|].row == Some(h + 1);
      }
    }
  }

  /** The number of rows among the first m that the store accepted. */
  function Accepted(run: Run, m: nat): (n: nat)
    requires m <= |run.rows|
    ensures n <= m
  {
    if m == 0 then 0 else Accepted(run, m - 1) + (if RowOutcome(run, m - 1).Success? then 1 else 0)
  }

  /** `processed` counts the accepted rows among those handled, so `failed`
      counts the rejected ones. */
  predicate CountsAccepted(run: Run, s: LoopState) {
    Handled(s) <= |run.rows| && s.processed == Accepted(run, Handled(s))
  }

  /** `processed` counts the accepted rows and `failed` the rejected ones. */
  lemma {:induction false} CountersCountRows(run: Run, store0: Store, jobs0: JobStore, k: nat)
    requires k <= |run.rows|
    ensures CountsAccepted(run, StateAfter(run, store0, jobs0, k))
  {
    if k == 0 {
      StartState(run, store0, jobs0);
    } else {
      var i := k - 1;
      CountersCountRows(run, store0, jobs0, i);
      CountersAt(run, store0, jobs0, i);
      assert StateAfter(run, store0, jobs0, i + 1) == StateAfter(run, store0, jobs0, k);
    }
  }

  lemma CountersAt(run: Run, store0: Store, jobs0: JobStore, i: nat)
    requires i < |run.rows|
    requires CountsAccepted(run, StateAfter(run, store0, jobs0, i))
    ensures CountsAccepted(run, StateAfter(run, store0, jobs0, i + 1))
  {
    var p := StateAfter(run, store0, jobs0, i);
    StepUnfolds(run, store0, jobs0, i);
    if p.halted.Some? {
      HaltedStep(run, i, p);
    } else {
      CountersStep(run, i, p);
    }
  }

  /** One iteration counts its row as processed exactly when the store
      accepted it. */
  lemma CountersStep(run: Run, i: nat, p: LoopState)
    requires i < |run.rows| && p.halted.None? && Handled(p) == i
    requires CountsAccepted(run, p)
    ensures CountsAccepted(run, Step(run, i, p))
  {
    var next := AfterRow(run, i, p);
    assert Step(run, i, p).processed == next.processed && Step(run, i, p).failed == next.failed;
    assert Accepted(run, i + 1) == Accepted(run, i) + (if RowOutcome(run, i).Success? then 1 else 0);
  }

  /** Once halted, an iteration changes nothing. */
  lemma HaltedStep(run: Run, i: nat, p: LoopState)
    requires i < |run.rows| && p.halted.Some?
    ensures Step(run, i, p) == p
  {
  }

  /** Before any row: the collection as given, nothing counted, and the one
      write of `processing` issued. */
  lemma StartState(run: Run, store0: Store, jobs0: JobStore)
    ensures var s := StateAfter(run, store0, jobs0, 0);
      && s.store == store0 && s.processed == 0 && s.failed == 0 && s.errors == []
      && s.trace == [StartProcessing(|run.rows|)] && s.halted == run.world.jobFault(0)
  {
  }

  /** Row j was accepted and its upsert targeted `key`. */
  predicate RowWrote(run: Run, j: nat, key: ReportKey)
    requires j < |run.rows|
  {
    RowOutcome(run, j).Success? && RowOutcome(run, j).value.Key() == key
  }

  /** The last row before m whose upsert to `key` the store accepted, if any. */
  function LastWriter(run: Run, key: ReportKey, m: nat): (r: Option<nat>)
    requires m <= |run.rows|
    ensures r.Some? ==> r.value < m && RowWrote(run, r.value, key)
    ensures r.Some? ==> forall j :: r.value < j < m ==> !RowWrote(run, j, key)
    ensures r.None? ==> forall j :: 0 <= j < m ==> !RowWrote(run, j, key)
  {
    if m == 0 then None
    else if RowWrote(run, m - 1, key) then Some(m - 1)
    else LastWriter(run, key, m - 1)
  }

  /** The report the upsert of accepted row j stored. */
  function RowReport(run: Run, j: nat): Report
    requires j < |run.rows| && RowOutcome(run, j).Success?
  {
    Written(RowOutcome(run, j).value)
  }

  /** What an accepted row stores, read off its cells: its key cells, each
      number parsed from its cell or from "0" when the cell is absent or
      empty, the region chosen by `RegionFor`, and the run's job id. */
  lemma RowReportFromCells(run: Run, j: nat)
    requires j < |run.rows| && RowOutcome(run, j).Success?
    ensures var row, w, r := run.rows[j], run.world, RowReport(run, j);
      && "ngoId" in row && "month" in row && r.ngoId == row["ngoId"] && r.month == row["month"]
      && ("peopleHelped" in row && row["peopleHelped"] != "" ==> r.peopleHelped == w.parseInt(row["peopleHelped"]))
      && ("peopleHelped" !in row || row["peopleHelped"] == "" ==> r.peopleHelped == w.parseInt("0"))
      && ("eventsConducted" in row && row["eventsConducted"] != "" ==> r.eventsConducted == w.parseInt(row["eventsConducted"]))
      && ("eventsConducted" !in row || row["eventsConducted"] == "" ==> r.eventsConducted == w.parseInt("0"))
      && ("fundsUtilized" in row && row["fundsUtilized"] != "" ==> r.fundsUtilized == w.parseFloat(row["fundsUtilized"]))
      && ("fundsUtilized" !in row || row["fundsUtilized"] == "" ==> r.fundsUtilized == w.parseFloat("0"))
      && r.region == RegionFor(run.rows[j], run.upload.defaultRegion)
      && r.jobId == Some(run.upload.jobId)
  {
  }

  /** The collection `st` holds, under `key`, what the rows before m left
      there: the report of the last accepted row with that key or, when no
      accepted row has it, what `store0` held. */
  predicate KeyFollowsRows(run: Run, store0: Store, st: Store, m: nat, key: ReportKey)
    requires m <= |run.rows|
  {
    var last := LastWriter(run, key, m);
    && (last.Some? ==> key in st && st[key] == RowReport(run, last.value))
    && (last.None? ==> (key in st <==> key in store0) && (key in store0 ==> st[key] == store0[key]))
  }

  /** After the loop has handled m rows, the report under each key is the one
      the last accepted row with that key wrote (its counts, region and job
      id): later rows win over earlier ones. A key no accepted row carries, in
      particular the key of every rejected row, is as it was before the run. */
  lemma {:induction false} StoreFollowsLastWriter(run: Run, store0: Store, jobs0: JobStore, k: nat, key: ReportKey)
    requires k <= |run.rows|
    ensures KeyFollows(run, store0, StateAfter(run, store0, jobs0, k), key)
  {
    if k == 0 {
      KeyFollowsStart(run, store0, jobs0, key);
    } else {
      var i := k - 1;
      StoreFollowsLastWriter(run, store0, jobs0, i, key);
      KeyFollowsAt(run, store0, jobs0, i, key);
      assert StateAfter(run, store0, jobs0, i + 1) == StateAfter(run, store0, jobs0, k);
    }
  }

  lemma KeyFollowsStart(run: Run, store0: Store, jobs0: JobStore, key: ReportKey)
    ensures KeyFollows(run, store0, StateAfter(run, store0, jobs0, 0), key)
  {
    StartState(run, store0, jobs0);
  }

  lemma KeyFollowsAt(run: Run, store0: Store, jobs0: JobStore, i: nat, key: ReportKey)
    requires i < |run.rows|
    requires KeyFollows(run, store0, StateAfter(run, store0, jobs0, i), key)
    ensures KeyFollows(run, store0, StateAfter(run, store0, jobs0, i + 1), key)
  {
    var p := StateAfter(run, store0, jobs0, i);
    StepUnfolds(run, store0, jobs0, i);
    if p.halted.Some? {
      HaltedStep(run, i, p);
    } else {
      KeyFollowsStep(run, store0, i, p, key);
    }
  }

  /** The loop state `s` is within the rows and its collection follows the
      rows it has handled under `key`. */
  predicate KeyFollows(run: Run, store0: Store, s: LoopState, key: ReportKey) {
    Handled(s) <= |run.rows| && KeyFollowsRows(run, store0, s.store, Handled(s), key)
  }

  lemma KeyFollowsStep(run: Run, store0: Store, i: nat, p: LoopState, key: ReportKey)
    requires i < |run.rows| && p.halted.None? && Handled(p) == i
    requires KeyFollows(run, store0, p, key)
    ensures KeyFollows(run, store0, Step(run, i, p), key)
  {
    var s := Step(run, i, p);
    var next := AfterRow(run, i, p);
    assert s.store == next.store;
    match RowOutcome(run, i)
    case Success(u) =>
      assert next.store == Upsert(p.store, u).0;
      if u.Key() == key {
        assert RowWrote(run, i, key);
        assert LastWriter(run, key, i + 1) == Some(i);
      } else {
        assert !RowWrote(run, i, key);
        assert LastWriter(run, key, i + 1) == LastWriter(run, key, i);
      }
    case Failure(_) =>
      assert next.store == p.store;
      assert !RowWrote(run, i, key);
      assert LastWriter(run, key, i + 1) == LastWriter(run, key, i);
  }

  /** Every row's region cell, and the upload's default region, is empty or
      in the enumeration. The worker does not check regions itself: whether
      the database refuses an unlisted one is part of its abstract answer. */
  predicate RegionsListed(run: Run) {
    && (!Truthy(run.upload.defaultRegion) || run.upload.defaultRegion.value in Regions)
    && forall i :: 0 <= i < |run.rows| ==>
         "region" !in run.rows[i] || run.rows[i]["region"] == "" || run.rows[i]["region"] in Regions
  }

  /** The loop keeps the collection keyed by (ngoId, month) and the required
      fields non-empty; when the rows name only listed regions, it also keeps
      every region inside the enumeration. */
  lemma {:induction false} StoreInvariantsKept(run: Run, store0: Store, jobs0: JobStore, k: nat)
    requires k <= |run.rows|
    ensures InvariantsFrom(run, store0, StateAfter(run, store0, jobs0, k).store)
  {
    if k == 0 {
      StartState(run, store0, jobs0);
    } else {
      var i := k - 1;
      StoreInvariantsKept(run, store0, jobs0, i);
      InvariantsAt(run, store0, jobs0, i);
      assert StateAfter(run, store0, jobs0, i + 1) == StateAfter(run, store0, jobs0, k);
    }
  }

  /** Each invariant `store0` has, `st` has too. */
  predicate InvariantsFrom(run: Run, store0: Store, st: Store) {
    && (WellKeyed(store0) ==> WellKeyed(st))
    && (HasRequired(store0) ==> HasRequired(st))
    && (RegionsValid(store0) && RegionsListed(run) ==> RegionsValid(st))
  }

  lemma InvariantsAt(run: Run, store0: Store, jobs0: JobStore, i: nat)
    requires i < |run.rows|
    requires InvariantsFrom(run, store0, StateAfter(run, store0, jobs0, i).store)
    ensures InvariantsFrom(run, store0, StateAfter(run, store0, jobs0, i + 1).store)
  {
    var p := StateAfter(run, store0, jobs0, i);
    StepUnfolds(run, store0, jobs0, i);
    if p.halted.Some? {
      HaltedStep(run, i, p);
    } else {
      InvariantsStep(run, i, p);
    }
  }

  /** One iteration keeps the collection's invariants. */
  lemma InvariantsStep(run: Run, i: nat, p: LoopState)
    requires i < |run.rows| && p.halted.None?
    ensures var st := Step(run, i, p).store;
      && (WellKeyed(p.store) ==> WellKeyed(st))
      && (HasRequired(p.store) ==> HasRequired(st))
      && (RegionsValid(p.store) && RegionsListed(run) ==> RegionsValid(st))
  {
    var next := AfterRow(run, i, p);
    assert Step(run, i, p).store == next.store;
    match RowOutcome(run, i)
    case Success(u) =>
      assert u.ngoId != "" && u.month != "";
      UpsertKeepsInvariants(p.store, u);
      if RegionsListed(run) {
        RegionInEnumeration(run.rows[i], run.upload.defaultRegion);
      }
    case Failure(_) =>
  }

  /** The 1-based numbers of the rows, among the first k of `total`, after
      which progress is flushed. */
  function FlushPoints(total: nat, k: nat): (r: seq<nat>)
    ensures forall x :: x in r <==> 1 <= x <= k && FlushAt(x - 1, total)
    ensures forall a, b :: 0 <= a < b < |r| ==> r[a] < r[b]
  {
    if k == 0 then []
    else
      var prev := FlushPoints(total, k - 1);
      assert forall a :: 0 <= a < |prev| ==> prev[a] in prev;
      prev + (if FlushAt(k - 1, total) then [k] else [])
  }

  /** For each progress flush in a trace of job writes, the number of rows it
      reports as handled. */
  function FlushMarks(ws: seq<JobUpdate>): seq<int> {
    if ws == [] then []
    else
      var last := ws[|ws| - 1];
      FlushMarks(ws[..|ws| - 1]) + (if last.FlushProgress? then [last.processed + last.failed] else [])
  }

  /** A progress flush that reports h handled rows carries the counters
      and the error list the loop had after h rows: processed counts the
      accepted rows among them, failed the others, and the errors are the
      faithful list of the failed ones. */
  predicate FlushFaithful(run: Run, u: JobUpdate) {
    && u.FlushProgress?
    && u.processed + u.failed <= |run.rows|
    && u.processed == Accepted(run, u.processed + u.failed)
    && |u.errors| == u.failed
    && FaithfulList(run, u.errors, u.processed + u.failed)
  }

  /** The job writes of a loop state: first `processing` with the row count,
      then one progress flush after each flushing row handled so far, each
      carrying the counters and error list of that moment (a prefix of the
      current list). */
  predicate TraceShaped(run: Run, s: LoopState) {
    && Handled(s) <= |run.rows|
    && |s.trace| >= 1 && s.trace[0] == StartProcessing(|run.rows|)
    && (forall j :: 1 <= j < |s.trace| ==> FlushFaithful(run, s.trace[j]) && s.trace[j].errors <= s.errors)
    && FlushMarks(s.trace) == FlushPoints(|run.rows|, Handled(s))
  }

  /** The job writes are shaped so after every iteration. */
  lemma {:induction false} TraceOfLoop(run: Run, store0: Store, jobs0: JobStore, k: nat)
    requires k <= |run.rows|
    ensures TraceShaped(run, StateAfter(run, store0, jobs0, k))
  {
    if k == 0 {
      StartState(run, store0, jobs0);
      StartShaped(run, StateAfter(run, store0, jobs0, 0));
    } else {
      var i := k - 1;
      TraceOfLoop(run, store0, jobs0, i);
      CountersCountRows(run, store0, jobs0, i);
      ErrorListFaithful(run, store0, jobs0, i);
      TraceAt(run, store0, jobs0, i);
      assert StateAfter(run, store0, jobs0, i + 1) == StateAfter(run, store0, jobs0, k);
    }
  }

  /** The single write of `processing` is a shaped trace. */
  lemma StartShaped(run: Run, s: LoopState)
    requires s.trace == [StartProcessing(|run.rows|)] && s.processed == 0 && s.failed == 0
    ensures TraceShaped(run, s)
  {
    assert s.trace[..0] == [];
    assert FlushMarks(s.trace) == FlushMarks([]) + [];
  }

  lemma TraceAt(run: Run, store0: Store, jobs0: JobStore, i: nat)
    requires i < |run.rows|
    requires TraceShaped(run, StateAfter(run, store0, jobs0, i))
    requires CountsAccepted(run, StateAfter(run, store0, jobs0, i))
    requires ErrorsFaithful(run, StateAfter(run, store0, jobs0, i))
    ensures TraceShaped(run, StateAfter(run, store0, jobs0, i + 1))
  {
    var p := StateAfter(run, store0, jobs0, i);
    StepUnfolds(run, store0, jobs0, i);
    if p.halted.Some? {
      HaltedStep(run, i, p);
    } else {
      TraceStep(run, i, p);
    }
  }

  lemma TraceStep(run: Run, i: nat, p: LoopState)
    requires i < |run.rows| && p.halted.None? && Handled(p) == i
    requires TraceShaped(run, p) && |p.errors| == p.failed
    requires CountsAccepted(run, p) && ErrorsFaithful(run, p)
    ensures Handled(Step(run, i, p)) == i + 1
    ensures TraceShaped(run, Step(run, i, p))
  {
    CountersStep(run, i, p);
    ErrorsFaithfulStep(run, i, p);
    var next := AfterRow(run, i, p);
    assert p.errors <= next.errors && Handled(next) == i + 1 && next.trace == p.trace;
    assert |next.errors| == next.failed;
    assert FlushPoints(|run.rows|, i + 1)
      == FlushPoints(|run.rows|, i) + (if FlushAt(i, |run.rows|) then [i + 1] else []);
    if FlushAt(i, |run.rows|) {
      var u := FlushProgress(next.processed, next.failed, next.errors);
      assert Step(run, i, p) == IssueJobWrite(run, next, u);
      FlushShaped(run, p, IssueJobWrite(run, next, u), u);
    } else {
      assert Step(run, i, p) == next;
    }
  }

  /** Appending the progress flush `u`, which reports every row handled so
      far with the current error list, keeps a trace shaped. */
  lemma FlushShaped(run: Run, p: LoopState, s: LoopState, u: JobUpdate)
    requires TraceShaped(run, p) && Handled(s) <= |run.rows|
    requires s.trace == p.trace + [u] && p.errors <= s.errors
    requires u == FlushProgress(s.processed, s.failed, s.errors) && |s.errors| == s.failed
    requires CountsAccepted(run, s) && ErrorsFaithful(run, s)
    requires FlushPoints(|run.rows|, Handled(s)) == FlushPoints(|run.rows|, Handled(p)) + [Handled(s)]
    ensures TraceShaped(run, s)
  {
    assert s.trace[..|s.trace| - 1] == p.trace;
    forall j | 1 <= j < |s.trace|
      ensures FlushFaithful(run, s.trace[j]) && s.trace[j].errors <= s.errors
    {
      if j < |p.trace| {
        assert s.trace[j] == p.trace[j];
        PrefixTransitive(p.trace[j].errors, p.errors, s.errors);
      }
    }
    assert FlushMarks(s.trace) == FlushMarks(p.trace) + [Handled(s)];
  }

  lemma PrefixTransitive<T>(a: seq<T>, b: seq<T>, c: seq<T>)
    requires a <= b && b <= c
    ensures a <= c
  {
  }

  /** Rows between j and k that do not flush add nothing to the flush points. */
  lemma {:induction false} NoFlushBetween(total: nat, j: nat, k: nat)
    requires j <= k
    requires forall i :: j <= i < k ==> !FlushAt(i, total)
    ensures FlushPoints(total, k) == FlushPoints(total, j)
    decreases k
  {
    if k > j {
      NoFlushBetween(total, j, k - 1);
    }
  }

  /** The flush cadence on 25 rows: after rows 1, 11, 21 and 25 (iterations
      0, 10, 20 and 24). */
  lemma TwentyFiveRowsFlush()
    ensures FlushPoints(25, 25) == [1, 11, 21, 25]
  {
    FirstBlock();
    SecondBlock();
    ThirdBlock();
  }

  lemma FirstBlock()
    ensures FlushPoints(25, 10) == [1]
  {
    assert FlushPoints(25, 1) == [1];
    forall i | 1 <= i < 10 ensures !FlushAt(i, 25) {
      assert i % 10 == i;
    }
    NoFlushBetween(25, 1, 10);
  }

  lemma SecondBlock()
    requires FlushPoints(25, 10) == [1]
    ensures FlushPoints(25, 20) == [1, 11]
  {
    assert FlushPoints(25, 11) == [1, 11];
    forall i | 11 <= i < 20 ensures !FlushAt(i, 25) {
      assert i % 10 == i - 10;
    }
    NoFlushBetween(25, 11, 20);
  }

  lemma ThirdBlock()
    requires FlushPoints(25, 20) == [1, 11]
    ensures FlushPoints(25, 24) == [1, 11, 21]
  {
    assert FlushPoints(25, 21) == [1, 11, 21];
    forall i | 21 <= i < 24 ensures !FlushAt(i, 25) {
      assert i % 10 == i - 20;
    }
    NoFlushBetween(25, 21, 24);
  }

  /** The job records during the loop: no job but this run's is touched, and
      this run's job is either as it was (the first write threw) or
      `processing` with the row count; once the first write succeeded and no
      write has thrown, it is `processing`. */
  predicate JobsInLoop(run: Run, jobs0: JobStore, s: LoopState) {
    var id := run.upload.jobId;
    && s.jobs.Keys == jobs0.Keys
    && (forall other :: other in jobs0 && other != id ==> s.jobs[other] == jobs0[other])
    && (id in jobs0 ==>
          && (s.jobs[id] == jobs0[id] || (s.jobs[id].status == Processing && s.jobs[id].totalRows == |run.rows|))
          && (s.halted.None? ==> s.jobs[id].status == Processing && s.jobs[id].totalRows == |run.rows|))
  }

  lemma {:induction false} JobsDuringLoop(run: Run, store0: Store, jobs0: JobStore, k: nat)
    requires k <= |run.rows|
    ensures JobsInLoop(run, jobs0, StateAfter(run, store0, jobs0, k))
  {
    if k == 0 {
      StartState(run, store0, jobs0);
    } else {
      var i := k - 1;
      JobsDuringLoop(run, store0, jobs0, i);
      JobsAt(run, store0, jobs0, i);
      assert StateAfter(run, store0, jobs0, i + 1) == StateAfter(run, store0, jobs0, k);
    }
  }

  lemma JobsAt(run: Run, store0: Store, jobs0: JobStore, i: nat)
    requires i < |run.rows|
    requires JobsInLoop(run, jobs0, StateAfter(run, store0, jobs0, i))
    ensures JobsInLoop(run, jobs0, StateAfter(run, store0, jobs0, i + 1))
  {
    var p := StateAfter(run, store0, jobs0, i);
    StepUnfolds(run, store0, jobs0, i);
    if p.halted.Some? {
      HaltedStep(run, i, p);
    } else {
      JobsStep(run, jobs0, i, p);
    }
  }

  lemma JobsStep(run: Run, jobs0: JobStore, i: nat, p: LoopState)
    requires i < |run.rows| && p.halted.None?
    requires JobsInLoop(run, jobs0, p)
    ensures JobsInLoop(run, jobs0, Step(run, i, p))
  {
    var next := AfterRow(run, i, p);
    assert next.jobs == p.jobs && next.halted.None?;
  }

  /** The run that the end handler performs when the stream ends with `rows`. */
  function EndRun(w: World, up: Upload): Run
    requires w.stream.Ended?
  {
    Run(w, up, w.stream.rows)
  }

  /** A run that resolves got past the connection and read the whole stream;
      its first job write is `processing` with the row count, then come the
      progress flushes after rows 1, 11, 21, ... and the last row, and its
      last write is `completed` with counters that add up to the row count
      and one error per failed row. The job ends `completed` with
      processed + failed == total, and the file is deleted. */
  lemma ResolvedRun(w: World, up: Upload, store0: Store, jobs0: JobStore)
    requires ProcessCsv(w, up, store0, jobs0).outcome.Resolved?
    ensures w.connect.None? && w.stream.Ended?
    ensures var r := ProcessCsv(w, up, store0, jobs0);
      var n := |w.stream.rows|;
      var last := r.trace[|r.trace| - 1];
      && r.fileRemoved
      && |r.trace| >= 2 && r.trace[0] == StartProcessing(n)
      && (forall j :: 1 <= j < |r.trace| - 1 ==> FlushFaithful(EndRun(w, up), r.trace[j]))
      && FlushMarks(r.trace) == FlushPoints(n, n)
      && last.Complete? && last.processed + last.failed == n && |last.errors| == last.failed
      && r.jobs.Keys == jobs0.Keys
      && (up.jobId in jobs0 ==>
            var job := r.jobs[up.jobId];
            && job.status == Completed && job.totalRows == n
            && job.processedRows + job.failedRows == job.totalRows
            && job.processedRows == last.processed && job.failedRows == last.failed
            && job.errors == last.errors)
    ensures var r, run := ProcessCsv(w, up, store0, jobs0), EndRun(w, up);
      var n, last := |run.rows|, r.trace[|r.trace| - 1];
      && last.processed == Accepted(run, n) && last.failed == n - Accepted(run, n)
      && FaithfulList(run, last.errors, n)
  {
    var run := EndRun(w, up);
    var n := |run.rows|;
    var s := StateAfter(run, store0, jobs0, n);
    TraceOfLoop(run, store0, jobs0, n);
    JobsDuringLoop(run, store0, jobs0, n);
    CountersCountRows(run, store0, jobs0, n);
    ErrorListFaithful(run, store0, jobs0, n);
    assert s.halted.None?;
    var fin := Complete(s.processed, s.failed, s.errors);
    var r := ProcessCsv(w, up, store0, jobs0);
    assert r.trace == s.trace + [fin];
    assert r.trace[..|r.trace| - 1] == s.trace;
    assert FlushMarks(r.trace) == FlushMarks(s.trace);
  }

  /** The first job write, `processing`, comes before any row: when it throws,
      no row has reached the report collection and no row error is recorded. */
  lemma StartFailureTouchesNoRow(w: World, up: Upload, store0: Store, jobs0: JobStore)
    requires w.connect.None? && w.stream.Ended? && w.jobFault(0).Some?
    ensures var r := ProcessCsv(w, up, store0, jobs0);
      r.outcome.Rejected? && r.store == store0 && r.jobs == jobs0
      && r.trace == [StartProcessing(|w.stream.rows|)]
  {
    var run := EndRun(w, up);
    HaltedStays(run, store0, jobs0, 0, |run.rows|);
  }

  /** A failure of `connectDB()` is the one failure the outer catch sees: the
      job becomes `failed` with a single error entry carrying the message and
      no row; totals and counters are not written; no report is touched; the
      file is deleted and the fault rethrown. If that job write throws too,
      nothing is written and the file stays. */
  lemma CaughtFailure(w: World, up: Upload, store0: Store, jobs0: JobStore)
    requires w.connect.Some?
    ensures var r := ProcessCsv(w, up, store0, jobs0);
      var msg := FaultMessage(w.connect.value);
      && r.outcome.Rejected? && r.store == store0
      && r.trace == [MarkFailed(msg)]
      && (w.jobFault(0).None? ==> r.outcome == Rejected(w.connect.value) && r.fileRemoved)
      && (w.jobFault(0).None? && up.jobId in jobs0 ==>
            var before, after := jobs0[up.jobId], r.jobs[up.jobId];
            && after.status == Failed && after.errors == [ErrorEntry(None, msg, None)]
            && after.totalRows == before.totalRows && after.processedRows == before.processedRows
            && after.failedRows == before.failedRows)
      && (w.jobFault(0).Some? ==> r.jobs == jobs0 && !r.fileRemoved)
  {
  }

  /** A stream error or a job write that throws inside the end handler
      rejects the promise without passing through the outer catch: no
      `failed` status is ever written, the file stays, and the job is left as
      it was or `processing`. A stream error touches nothing at all. */
  lemma UncaughtRejection(w: World, up: Upload, store0: Store, jobs0: JobStore)
    requires w.connect.None?
    requires ProcessCsv(w, up, store0, jobs0).outcome.Rejected?
    ensures var r := ProcessCsv(w, up, store0, jobs0);
      && (forall j :: 0 <= j < |r.trace| ==> !r.trace[j].MarkFailed?)
      && !r.fileRemoved
      && r.jobs.Keys == jobs0.Keys
      && (up.jobId in jobs0 ==> r.jobs[up.jobId] == jobs0[up.jobId] || r.jobs[up.jobId].status == Processing)
      && (w.stream.StreamFailed? ==> r.trace == [] && r.jobs == jobs0 && r.store == store0)
  {
    if w.stream.Ended? {
      var run := EndRun(w, up);
      var n := |run.rows|;
      var s := StateAfter(run, store0, jobs0, n);
      TraceOfLoop(run, store0, jobs0, n);
      JobsDuringLoop(run, store0, jobs0, n);
      if s.halted.None? {
        var fin := Complete(s.processed, s.failed, s.errors);
        var r := ProcessCsv(w, up, store0, jobs0);
        assert r.trace == s.trace + [fin];
        assert r.jobs == s.jobs;
      }
    }
  }

  /** Whether a job write throws, and so how far the loop gets and how many
      writes it issues, depends only on the row count and the store's answers
      to job writes: not on the rows' contents, the parsers or the store's
      answers to report upserts. */
  lemma {:induction false} ControlFlowAgrees(run1: Run, store1: Store, jobs1: JobStore,
                                             run2: Run, store2: Store, jobs2: JobStore, k: nat)
    requires |run1.rows| == |run2.rows| && k <= |run1.rows|
    requires forall n :: run1.world.jobFault(n) == run2.world.jobFault(n)
    ensures SameControl(StateAfter(run1, store1, jobs1, k), StateAfter(run2, store2, jobs2, k))
  {
    if k == 0 {
      StartState(run1, store1, jobs1);
      StartState(run2, store2, jobs2);
    } else {
      var i := k - 1;
      ControlFlowAgrees(run1, store1, jobs1, run2, store2, jobs2, i);
      ControlAt(run1, store1, jobs1, run2, store2, jobs2, i);
      assert StateAfter(run1, store1, jobs1, i + 1) == StateAfter(run1, store1, jobs1, k);
      assert StateAfter(run2, store2, jobs2, i + 1) == StateAfter(run2, store2, jobs2, k);
    }
  }

  /** Two loop states agree on whether a job write threw, how many rows
      were handled and how many job writes were issued. */
  predicate SameControl(s1: LoopState, s2: LoopState) {
    s1.halted == s2.halted && Handled(s1) == Handled(s2) && |s1.trace| == |s2.trace|
  }

  lemma ControlAt(run1: Run, store1: Store, jobs1: JobStore,
                  run2: Run, store2: Store, jobs2: JobStore, i: nat)
    requires |run1.rows| == |run2.rows| && i < |run1.rows|
    requires forall n :: run1.world.jobFault(n) == run2.world.jobFault(n)
    requires SameControl(StateAfter(run1, store1, jobs1, i), StateAfter(run2, store2, jobs2, i))
    ensures SameControl(StateAfter(run1, store1, jobs1, i + 1), StateAfter(run2, store2, jobs2, i + 1))
  {
    var p1, p2 := StateAfter(run1, store1, jobs1, i), StateAfter(run2, store2, jobs2, i);
    StepUnfolds(run1, store1, jobs1, i);
    StepUnfolds(run2, store2, jobs2, i);
    StepControl(run1, i, p1);
    StepControl(run2, i, p2);
  }

  /** What one iteration does to the control state: whether it halts, how
      many rows are handled, how many job writes are issued. */
  lemma StepControl(run: Run, i: nat, p: LoopState)
    requires i < |run.rows|
    ensures var s := Step(run, i, p);
      && (p.halted.Some? ==> s == p)
      && (p.halted.None? ==>
            && Handled(s) == Handled(p) + 1
            && (FlushAt(i, |run.rows|) ==> s.halted == run.world.jobFault(|p.trace|) && |s.trace| == |p.trace| + 1)
            && (!FlushAt(i, |run.rows|) ==> s.halted.None? && s.trace == p.trace))
  {
    if p.halted.None? {
      var next := AfterRow(run, i, p);
      assert Handled(next) == Handled(p) + 1 && next.trace == p.trace && next.halted.None?;
    }
  }

  /** Row failures never change how a run ends: two runs that differ only in
      the rows' contents, the parsers and the store's answers to report
      upserts settle the same way. */
  lemma OutcomeIgnoresRowFailures(w1: World, w2: World, up1: Upload, up2: Upload,
                                  store1: Store, store2: Store, jobs1: JobStore, jobs2: JobStore)
    requires w1.connect == w2.connect
    requires forall n :: w1.jobFault(n) == w2.jobFault(n)
    requires w1.stream.StreamFailed? ==> w2.stream == w1.stream
    requires w1.stream.Ended? ==> w2.stream.Ended? && |w2.stream.rows| == |w1.stream.rows|
    ensures ProcessCsv(w1, up1, store1, jobs1).outcome == ProcessCsv(w2, up2, store2, jobs2).outcome
    ensures |ProcessCsv(w1, up1, store1, jobs1).trace| == |ProcessCsv(w2, up2, store2, jobs2).trace|
  {
    if w1.connect.None? && w1.stream.Ended? {
      var run1, run2 := EndRun(w1, up1), EndRun(w2, up2);
      ControlFlowAgrees(run1, store1, jobs1, run2, store2, jobs2, |run1.rows|);
    }
  }

  /** The reports a run leaves: each key holds the report of the last row
      before the point the run reached that the store accepted with that key,
      or what it held before. A run that resolves reached every row. */
  lemma RunStore(w: World, up: Upload, store0: Store, jobs0: JobStore, key: ReportKey)
    requires w.connect.None? && w.stream.Ended?
    ensures var r := ProcessCsv(w, up, store0, jobs0);
      var run := EndRun(w, up);
      var s := StateAfter(run, store0, jobs0, |run.rows|);
      && Handled(s) <= |run.rows|
      && (r.outcome.Resolved? ==> Handled(s) == |run.rows|)
      && r.store == s.store
      && KeyFollowsRows(run, store0, r.store, Handled(s), key)
  {
    var run := EndRun(w, up);
    StoreFollowsLastWriter(run, store0, jobs0, |run.rows|, key);
  }

  /** Importing the same file again, with the store answering as before,
      leaves the report collection as the first import left it: every key
      ends with the report of the same last accepted row. */
  lemma RerunKeepsStore(w: World, up: Upload, store0: Store, jobs0: JobStore, jobs1: JobStore)
    ensures var once := ProcessCsv(w, up, store0, jobs0).store;
      ProcessCsv(w, up, once, jobs1).store == once
  {
    var once := ProcessCsv(w, up, store0, jobs0).store;
    var twice := ProcessCsv(w, up, once, jobs1).store;
    if w.connect.None? && w.stream.Ended? {
      var run := EndRun(w, up);
      var n := |run.rows|;
      ControlFlowAgrees(run, store0, jobs0, run, once, jobs1, n);
      var m := Handled(StateAfter(run, store0, jobs0, n));
      forall key
        ensures (key in twice <==> key in once) && (key in once ==> twice[key] == once[key])
      {
        RunStore(w, up, store0, jobs0, key);
        RunStore(w, up, once, jobs1, key);
      }
      assert twice == once;
    }
  }

  /** The store answers an upsert alike whatever job id it stamps: a row's
      upsert fails, and with which message, for its other fields only. */
  ghost predicate StoreIgnoresJobId(w: World) {
    forall i: nat, u: ReportUpdate, id: string :: w.storeFault(i, u.(jobId := Some(id))) == w.storeFault(i, u)
  }

  /** The keys the rows before m wrote: those of the rows the store accepted. */
  function WrittenKeys(run: Run, m: nat): (keys: set<ReportKey>)
    requires m <= |run.rows|
    ensures forall key :: key in keys <==> LastWriter(run, key, m).Some?
  {
    if m == 0 then {}
    else
      var earlier := WrittenKeys(run, m - 1);
      if RowOutcome(run, m - 1).Success? then earlier + {RowOutcome(run, m - 1).value.Key()} else earlier
  }

  /** The keys one call of `processCsv` wrote: none when the connection or
      the parser failed, otherwise those of the rows accepted before the
      point the run reached. */
  function KeysWritten(w: World, up: Upload, store0: Store, jobs0: JobStore): set<ReportKey> {
    if w.connect.None? && w.stream.Ended? then
      var run := EndRun(w, up);
      WrittenKeys(run, Handled(StateAfter(run, store0, jobs0, |run.rows|)))
    else {}
  }

  /** Row i in a run for another job with the same default region: accepted
      or rejected alike, and when accepted it writes the same update stamped
      with the other job id. */
  lemma RowOutcomeOtherJob(w: World, up1: Upload, up2: Upload, i: nat)
    requires w.stream.Ended? && i < |w.stream.rows|
    requires up1.defaultRegion == up2.defaultRegion && StoreIgnoresJobId(w)
    ensures var r1, r2 := RowOutcome(EndRun(w, up1), i), RowOutcome(EndRun(w, up2), i);
      && (r1.Success? <==> r2.Success?)
      && (r1.Success? ==> r2.value == r1.value.(jobId := Some(up2.jobId)))
  {
    var row := w.stream.rows[i];
    if Validate(row).Success? {
      var key := Validate(row).value;
      var u1, u2 := RowUpdate(w, up1, key, row), RowUpdate(w, up2, key, row);
      assert u2 == u1.(jobId := Some(up2.jobId));
      assert w.storeFault(i, u2) == w.storeFault(i, u1);
    }
  }

  /** The last writer of every key is the same row in both runs. */
  lemma {:induction false} LastWriterOtherJob(w: World, up1: Upload, up2: Upload, key: ReportKey, m: nat)
    requires w.stream.Ended? && m <= |w.stream.rows|
    requires up1.defaultRegion == up2.defaultRegion && StoreIgnoresJobId(w)
    ensures LastWriter(EndRun(w, up2), key, m) == LastWriter(EndRun(w, up1), key, m)
  {
    if m > 0 {
      LastWriterOtherJob(w, up1, up2, key, m - 1);
      RowOutcomeOtherJob(w, up1, up2, m - 1);
      assert RowWrote(EndRun(w, up2), m - 1, key) == RowWrote(EndRun(w, up1), m - 1, key);
    }
  }

  /** Importing the same file again for a new job (another job id, the same
      default region), with the store answering each upsert as before: the
      collection keeps its keys; a key the re-import wrote holds the first
      import's report restamped with the new job id, and every other key
      keeps its report. */
  lemma RerunForNewJob(w: World, up1: Upload, up2: Upload, store0: Store, jobs0: JobStore, jobs1: JobStore)
    requires up1.defaultRegion == up2.defaultRegion && StoreIgnoresJobId(w)
    ensures var once := ProcessCsv(w, up1, store0, jobs0).store;
      var twice := ProcessCsv(w, up2, once, jobs1).store;
      var written := KeysWritten(w, up2, once, jobs1);
      && twice.Keys == once.Keys
      && written <= once.Keys
      && (forall key :: key in written ==> twice[key] == once[key].(jobId := Some(up2.jobId)))
      && (forall key :: key in once && key !in written ==> twice[key] == once[key])
  {
    var once := ProcessCsv(w, up1, store0, jobs0).store;
    var twice := ProcessCsv(w, up2, once, jobs1).store;
    var written := KeysWritten(w, up2, once, jobs1);
    if w.connect.None? && w.stream.Ended? {
      var run1, run2 := EndRun(w, up1), EndRun(w, up2);
      var n := |run1.rows|;
      ControlFlowAgrees(run1, store0, jobs0, run2, once, jobs1, n);
      var m := Handled(StateAfter(run1, store0, jobs0, n));
      forall key
        ensures (key in twice <==> key in once)
        ensures key in written ==> key in once && twice[key] == once[key].(jobId := Some(up2.jobId))
        ensures key in once && key !in written ==> twice[key] == once[key]
      {
        RunStore(w, up1, store0, jobs0, key);
        RunStore(w, up2, once, jobs1, key);
        LastWriterOtherJob(w, up1, up2, key, m);
        var last := LastWriter(run1, key, m);
        if last.Some? {
          RowOutcomeOtherJob(w, up1, up2, last.value);
        }
      }
    }
  }

  /** A job that was not already completed ends `completed` only with
      processed + failed == total. */
  lemma CompletedJobBalances(w: World, up: Upload, store0: Store, jobs0: JobStore)
    requires up.jobId in jobs0 && jobs0[up.jobId].status != Completed
    ensures var r := ProcessCsv(w, up, store0, jobs0);
      up.jobId in r.jobs
      && (r.jobs[up.jobId].status == Completed ==>
            r.jobs[up.jobId].processedRows + r.jobs[up.jobId].failedRows == r.jobs[up.jobId].totalRows)
  {
    var r := ProcessCsv(w, up, store0, jobs0);
    if r.outcome.Resolved? {
      ResolvedRun(w, up, store0, jobs0);
    } else if w.connect.None? {
      UncaughtRejection(w, up, store0, jobs0);
    } else {
      CaughtFailure(w, up, store0, jobs0);
    }
  }

  /** A three-row file whose second row has no ngoId. */
  function ThreeRows(): seq<Row> {
    [map["ngoId" := "ngo-1", "month" := "2024-01"],
     map["month" := "2024-01"],
     map["ngoId" := "ngo-2", "month" := "2024-01"]]
  }

  /** A world that connects, reads `ThreeRows` and accepts every write. */
  function ThreeRowWorld(parseInt: string -> int, parseFloat: string -> real): World {
    World(None, Ended(ThreeRows()), parseInt, parseFloat, (i, u) => None, n => None)
  }

  /** When no job write throws, the loop never halts. */
  lemma {:induction false} NoJobFaultNoHalt(run: Run, store0: Store, jobs0: JobStore, k: nat)
    requires k <= |run.rows|
    requires forall n :: run.world.jobFault(n).None?
    ensures StateAfter(run, store0, jobs0, k).halted.None?
  {
    if k == 0 {
      StartState(run, store0, jobs0);
    } else {
      NoJobFaultNoHalt(run, store0, jobs0, k - 1);
      StepUnfolds(run, store0, jobs0, k - 1);
      StepControl(run, k - 1, StateAfter(run, store0, jobs0, k - 1));
    }
  }

  /** A run that connects, reads the whole file and whose job writes never
      throw resolves: row failures alone never reject the promise. */
  lemma ResolvesWithoutJobFaults(w: World, up: Upload, store0: Store, jobs0: JobStore)
    requires w.connect.None? && w.stream.Ended?
    requires forall n :: w.jobFault(n).None?
    ensures ProcessCsv(w, up, store0, jobs0).outcome.Resolved?
  {
    var run := EndRun(w, up);
    NoJobFaultNoHalt(run, store0, jobs0, |run.rows|);
  }

  /** Importing `ThreeRows` for an existing job: two rows are processed and
      one fails, and the job ends completed with one error, naming row 2. */
  lemma ThreeRowImport(parseInt: string -> int, parseFloat: string -> real, store0: Store, jobs0: JobStore)
    requires "job-1" in jobs0
    ensures var r := ProcessCsv(ThreeRowWorld(parseInt, parseFloat), Upload("job-1", None), store0, jobs0);
      && r.outcome == Resolved && r.fileRemoved && "job-1" in r.jobs
      && r.jobs["job-1"].status == Completed
      && r.jobs["job-1"].totalRows == 3
      && r.jobs["job-1"].processedRows == 2 && r.jobs["job-1"].failedRows == 1
      && r.jobs["job-1"].errors == [ErrorEntry(Some(2), MissingFieldsMessage, Some(ThreeRows()[1]))]
      && r.store.Keys == store0.Keys + {("ngo-1", "2024-01"), ("ngo-2", "2024-01")}
      && r.store[("ngo-1", "2024-01")] == ZeroReport(parseInt, parseFloat, "ngo-1")
      && r.store[("ngo-2", "2024-01")] == ZeroReport(parseInt, parseFloat, "ngo-2")
      && forall key :: key in store0 && key != ("ngo-1", "2024-01") && key != ("ngo-2", "2024-01") ==>
           key in r.store && r.store[key] == store0[key]
  {
    var w, up := ThreeRowWorld(parseInt, parseFloat), Upload("job-1", None);
    var run := EndRun(w, up);
    ResolvesWithoutJobFaults(w, up, store0, jobs0);
    ResolvedRun(w, up, store0, jobs0);
    ThreeRowOutcomes(parseInt, parseFloat);
    var errors := ProcessCsv(w, up, store0, jobs0).jobs["job-1"].errors;
    OnlySecondRowFails(run, errors);
    ThreeRowStore(parseInt, parseFloat, store0, jobs0);
  }

  /** The report a `ThreeRows` row without numbers or region stores for job-1:
      each number parsed from "0" and the region "South". */
  function ZeroReport(parseInt: string -> int, parseFloat: string -> real, ngoId: string): Report {
    Report(ngoId, "2024-01", parseInt("0"), parseInt("0"), parseFloat("0"), DefaultRegion, Some("job-1"))
  }

  /** The collection after a resolved `ThreeRows` import: the two accepted
      rows' keys are added (or overwritten) and nothing else changes. */
  lemma ThreeRowStore(parseInt: string -> int, parseFloat: string -> real, store0: Store, jobs0: JobStore)
    requires ProcessCsv(ThreeRowWorld(parseInt, parseFloat), Upload("job-1", None), store0, jobs0).outcome.Resolved?
    ensures var st := ProcessCsv(ThreeRowWorld(parseInt, parseFloat), Upload("job-1", None), store0, jobs0).store;
      && st.Keys == store0.Keys + {("ngo-1", "2024-01"), ("ngo-2", "2024-01")}
      && st[("ngo-1", "2024-01")] == ZeroReport(parseInt, parseFloat, "ngo-1")
      && st[("ngo-2", "2024-01")] == ZeroReport(parseInt, parseFloat, "ngo-2")
      && forall key :: key in store0 && key != ("ngo-1", "2024-01") && key != ("ngo-2", "2024-01") ==>
           key in st && st[key] == store0[key]
  {
    var w, up := ThreeRowWorld(parseInt, parseFloat), Upload("job-1", None);
    var run := EndRun(w, up);
    ThreeRowOutcomes(parseInt, parseFloat);
    assert RowOutcome(run, 0).value.Key() == ("ngo-1", "2024-01");
    assert RowOutcome(run, 2).value.Key() == ("ngo-2", "2024-01");
    StoreAfterSecondRowFails(w, up, store0, jobs0);
    assert RowReport(run, 0) == ZeroReport(parseInt, parseFloat, "ngo-1");
    assert RowReport(run, 2) == ZeroReport(parseInt, parseFloat, "ngo-2");
  }

  /** A resolved run over three rows of which only the second is rejected
      adds (or overwrites) the keys of the first and third rows with their
      reports and leaves every other key as it was. */
  lemma StoreAfterSecondRowFails(w: World, up: Upload, store0: Store, jobs0: JobStore)
    requires w.stream.Ended? && |w.stream.rows| == 3
    requires ProcessCsv(w, up, store0, jobs0).outcome.Resolved?
    requires RowOutcome(EndRun(w, up), 0).Success? && RowOutcome(EndRun(w, up), 2).Success?
    requires RowOutcome(EndRun(w, up), 1).Failure?
    ensures var st, run := ProcessCsv(w, up, store0, jobs0).store, EndRun(w, up);
      var k1, k3 := RowOutcome(run, 0).value.Key(), RowOutcome(run, 2).value.Key();
      && st.Keys == store0.Keys + {k1, k3}
      && st[k3] == RowReport(run, 2)
      && (k1 != k3 ==> st[k1] == RowReport(run, 0))
      && forall key :: key in store0 && key != k1 && key != k3 ==> st[key] == store0[key]
  {
    var run := EndRun(w, up);
    var st := ProcessCsv(w, up, store0, jobs0).store;
    var k1, k3 := RowOutcome(run, 0).value.Key(), RowOutcome(run, 2).value.Key();
    forall key {
      KeyAfterSecondRowFails(w, up, store0, jobs0, key);
    }
  }

  /** One key of `StoreAfterSecondRowFails`. */
  lemma KeyAfterSecondRowFails(w: World, up: Upload, store0: Store, jobs0: JobStore, key: ReportKey)
    requires w.stream.Ended? && |w.stream.rows| == 3
    requires ProcessCsv(w, up, store0, jobs0).outcome.Resolved?
    requires RowOutcome(EndRun(w, up), 0).Success? && RowOutcome(EndRun(w, up), 2).Success?
    requires RowOutcome(EndRun(w, up), 1).Failure?
    ensures var st, run := ProcessCsv(w, up, store0, jobs0).store, EndRun(w, up);
      var k1, k3 := RowOutcome(run, 0).value.Key(), RowOutcome(run, 2).value.Key();
      && (key in st <==> key in store0 || key == k1 || key == k3)
      && (key == k3 ==> key in st && st[key] == RowReport(run, 2))
      && (key == k1 && k1 != k3 ==> key in st && st[key] == RowReport(run, 0))
      && (key in store0 && key != k1 && key != k3 ==> st[key] == store0[key])
  {
    RunStore(w, up, store0, jobs0, key);
    SecondRowWritesNothing(EndRun(w, up), key);
  }

  /** Over three rows of which only the second is rejected, a key's last
      writer is the third row when it carries that key, else the first row
      when it does, else none. */
  lemma SecondRowWritesNothing(run: Run, key: ReportKey)
    requires |run.rows| == 3
    requires RowOutcome(run, 0).Success? && RowOutcome(run, 2).Success?
    requires RowOutcome(run, 1).Failure?
    ensures LastWriter(run, key, 3) ==
      if RowOutcome(run, 2).value.Key() == key then Some(2)
      else if RowOutcome(run, 0).value.Key() == key then Some(0)
      else None
  {
    assert LastWriter(run, key, 1) == if RowWrote(run, 0, key) then Some(0) else None;
    assert LastWriter(run, key, 2) == LastWriter(run, key, 1);
  }

  /** Rows 1 and 3 are accepted and row 2 is rejected. */
  lemma ThreeRowOutcomes(parseInt: string -> int, parseFloat: string -> real)
    ensures var run := EndRun(ThreeRowWorld(parseInt, parseFloat), Upload("job-1", None));
      && RowOutcome(run, 0).Success? && RowOutcome(run, 2).Success?
      && RowOutcome(run, 1) == Failure(MissingFieldsMessage)
      && Accepted(run, 3) == 2
  {
    var run := EndRun(ThreeRowWorld(parseInt, parseFloat), Upload("job-1", None));
    assert Validate(ThreeRows()[0]).Success? && Validate(ThreeRows()[2]).Success?;
    assert Validate(ThreeRows()[1]).Failure?;
    assert Accepted(run, 1) == 1;
    assert Accepted(run, 2) == 1;
  }

  /** A faithful error list of one entry, over three rows of which only the
      second fails, is the entry for row 2. */
  lemma OnlySecondRowFails(run: Run, errors: seq<ErrorEntry>)
    requires |run.rows| == 3 && |errors| == 1
    requires RowOutcome(run, 0).Success? && RowOutcome(run, 2).Success?
    requires RowOutcome(run, 1).Failure?
    requires FaithfulList(run, errors, 3)
    ensures errors == [ErrorEntry(Some(2), RowOutcome(run, 1).error, Some(run.rows[1]))]
  {
    assert DescribesFailure(run, errors[0]);
    var n := errors[0].row.value;
    assert n == 2;
  }
}

=== FILE: wrappers.dfy ===
/** Wrappers used throughout the model: an optional value
    (JavaScript's `undefined`/`null` versus a present value) and a result that
    either carries a value or the message of a thrown error. */
module Wrappers {

  datatype Option<+T> = None | Some(value: T) {

    /** The wrapped value, or `default` when there is none. */
    function GetOr(default: T): T {
      match this
      case Some(v) => v
      case None => default
    }
  }

  datatype Result<+R, +E> = Success(value: R) | Failure(error: E)
}
